=== FILE: README.md ===
# Catalyst Center GitHub sync and network state sync, modelled in Dafny

This project models two small automation applications. The first keeps Cisco Catalyst
Center configuration templates in step with a GitHub repository. The second publishes a
snapshot of the controller's network state to a GitHub repository. The modules are:

- `Wrappers`: `Option` and `Result`. A `Failure` is a Python exception that ends the run.
- `Json`: JSON values. Objects are field lists in insertion order, like a Python `dict`,
  with `Put` (`dict.update` of one key), `Lookup` (`d[k]`) and `Iterate` (`for x in v`).
- `GithubApis`: the helpers of `github_apis.py`:
  - the file URL;
  - the `name`/`sha` projections of the listings;
  - the base64 branch of `get_repo_file_content`;
  - the commit summary of `get_repo_commit_sha`;
  - the create-or-update of `github_push`, against a repository tree.
- `TemplateSync`: `main()` of `catalyst_center_github_sync.py`. It checks that the
  repository exists and is not empty, and collects the commit summaries, stopping when one
  of them raises. It opens or
  creates the project. Then, per repository file, it:
  - composes the annotated template;
  - creates and commits the template, updates and commits it, or leaves it unchanged;
  - writes the local copy and the report line.

  The controller is a value: the project, its templates in listing order, the next id it
  hands out and the last committed content per template. Every write request (project,
  template, commit, local file) is recorded in a call trace. The read requests are inputs,
  among them a details view: what `get_templates_details` returns for a template listing
  and a name.
- `SiteSort`: Python's `<` on strings and `sorted(..., key=...)` on the site list, as a
  stable insertion sort. The lemmas show that any stable sort gives the same list.
- `NetworkStateSync`: `main()` of `catalyst_center_network_state_sync.py`:
  - the paginated device list;
  - the device and access-point inventories, including the management address an access
    point inherits from the last non-AP device;
  - the site count and Global site checks;
  - the sorted site hierarchy and the per-site network settings;
  - the state directory, with `report.json` removed and the four state files written;
  - the private-repository check and the push of every file in the directory, with the
    report;
  - `SyncNetworkState`, the two phases run in sequence as `main()` runs them.

Remote services are inputs: a record of response functions per system (`Catalyst`,
`Hub`, `Source`). `json.dumps` is the parameter `dumps`. `base64.b64decode(...).decode()`
is the parameter `b64decode`. The order `os.listdir` returns is the parameter `listing`,
and `Enumerates` requires it to list the directory. For the whole run,
`ListsStateDirectory` says it lists the state directory as the collection phase leaves it.

## Model

| member | source | states |
|---|---|---|
| Json.Put | catalyst_center_network_state_sync.py:116-121 | `dict.update` of one key: a new key goes at the end and an existing key keeps its place; the key then maps to the new value and no other key changes |
| Json.GetDistinct | catalyst_center_network_state_sync.py:116-126 | in a dict with distinct keys, looking up the i-th key yields the i-th value |
| Json.Iterate | github_apis.py:58-59 | iterating a list yields its items; a dict yields its keys in order and a string its characters in order; iterating `null`, a bool or a number raises |
| GithubApis.FileUrlInjective | github_apis.py:105 | for slash-free owner and repository names, distinct (owner, repository, file) triples get distinct file URLs |
| GithubApis.ProjectField | github_apis.py:58-60 | listing projection (`get_repos`, `get_private_repos`, `get_repo_content`, `get_repo_commits`): succeeds iff the response is iterable and every element has the key; keeps the elements' values of the key, in order |
| GithubApis.GetRepoFileContent | github_apis.py:109-113 | a response without `content` raises; encoding "base64" yields the decoded text and raises when decoding fails; any other encoding yields the content unchanged |
| GithubApis.ServedFileReadsBack | github_apis.py:109-113 | a file served base64-encoded reads back as the original text whenever decoding inverts encoding |
| GithubApis.GetRepoCommitSha | github_apis.py:145-152 | succeeds iff the response has `commit.author.email`, `commit.author.date`, `commit.message` and `html_url`, and a first changed file with `filename` and `patch`; any missing key or an empty file list raises; file name and diff come from that first file; author, date, message and URL from the commit |
| GithubApis.CommitInfoIgnoresLaterFiles | github_apis.py:148-150 | files after the first changed file do not affect the summary |
| GithubApis.GithubPush | github_apis.py:172-179 | succeeds iff `update` matches whether the file exists; the file then holds the content; an update reads the file on `main` and writes with its sha; a create writes once |
| GithubApis.PushWritesOnce | github_apis.py:172-179 | a successful push ends with exactly one write, to the named file, and makes no other write |
| TemplateSync.FirstCommitIndex | catalyst_center_github_sync.py:129-136 | the first commit summary naming the file, or none when no summary names it |
| TemplateSync.ComposedMetadata | catalyst_center_github_sync.py:126-140 | the template is the header, the metadata of the first commit naming the file (nothing when none does), the terminator, then the file body |
| TemplateSync.ComposedLayout | catalyst_center_github_sync.py:126-140 | every composed template starts with the header and ends with the terminator followed by the body |
| TemplateSync.ComposeInjective | catalyst_center_github_sync.py:137-140 | equal composed templates for one file mean equal file bodies |
| TemplateSync.TemplateNameShape | catalyst_center_github_sync.py:143 | the template name is the longest dot-free prefix of the file name, and the whole name when it has no dot |
| TemplateSync.LastTemplateIndex | catalyst_center_github_sync.py:147-152 | the last template with the name, or none when no template has it |
| TemplateSync.LookupTemplateIdSpec | catalyst_center_github_sync.py:147-152 | the id lookup finds nothing iff no template has the name; otherwise it returns the id of the last template with the name |
| TemplateSync.SetContent | catalyst_center_github_sync.py:211-219 | an update changes content only: same templates, ids and names |
| TemplateSync.CreateFacts | catalyst_center_github_sync.py:162-183 | creating a missing template gives it the next id and the content; a later lookup by name finds it; other names keep their content; well-formedness is kept |
| TemplateSync.UpdateFacts | catalyst_center_github_sync.py:211-219 | updating the template found by name stores the content under that id and name; other names keep their content; well-formedness is kept |
| TemplateSync.DetailsOfUniqueNames | catalyst_center_github_sync.py:198-203 | with unique names, a details response that reports the stored templates (`TemplateDetails`, not an arbitrary `Source.details`) holds the stored content of that name, or nothing |
| TemplateSync.ExpectedWrites | catalyst_center_github_sync.py:235-237 | one local write per repository file, in file order |
| TemplateSync.SyncFile | catalyst_center_github_sync.py:125-237 | one file's iteration keeps the project and yields a verdict for the file's template name |
| TemplateSync.SyncFileOutcome | catalyst_center_github_sync.py:162-233 | unknown name: create, then commit the new id, verdict Created. Empty details: no write request, Skipped. Identical content: no write request, Unchanged. Otherwise update, then commit that id, verdict Updated. Then the local write. The committed versions follow each commit |
| TemplateSync.ReportLine | catalyst_center_github_sync.py:192-233 | a skipped file adds nothing to the report, and every other verdict adds a non-empty line (the created, unchanged and updated texts of the source) |
| TemplateSync.ReportLineInjective | catalyst_center_github_sync.py:192-233 | a created, unchanged or updated report line determines its verdict and its template name |
| TemplateSync.ProjectCreatedLineInjective | catalyst_center_github_sync.py:113 | the "not found, created" line determines the project it names |
| TemplateSync.SyncFileTrace | catalyst_center_github_sync.py:162-237 | one iteration's trace ends with the file's local write (its only one); every create or update is followed by its commit; no project is created |
| TemplateSync.SyncFileStore | catalyst_center_github_sync.py:162-233 | one iteration keeps a well-formed controller well formed and changes only that template name; when the details response reports the stored templates, that name then holds the composed content (with lagging details the file is skipped and nothing is stored) |
| TemplateSync.UnchangedWhenUpToDate | catalyst_center_github_sync.py:201-209 | on a well-formed controller, and when the details response reports the stored templates, a template that already holds the composed content causes no write request and is reported unchanged |
| TemplateSync.WritesAppend | catalyst_center_github_sync.py:235-237 | the local writes of a concatenated trace are the writes of each part, in order |
| TemplateSync.CommitsFollowWritesAppend | catalyst_center_github_sync.py:185-190 | concatenating traces in which every write is committed gives such a trace |
| TemplateSync.CommitsFollowWritesPaired | catalyst_center_github_sync.py:185-190 | "every create or update is immediately committed" (read left to right) is equivalent to its call-by-call form |
| TemplateSync.CreatesNoProjectAppend | catalyst_center_github_sync.py:110-115 | concatenating traces without a project creation gives such a trace |
| TemplateSync.CollectCommitInfo | catalyst_center_github_sync.py:99-106 | the commit summaries, one per sha in order; fails iff some commit's summary raises |
| TemplateSync.Opened | catalyst_center_github_sync.py:108-121 | after the project step the project exists; an existing project is untouched; a new one starts empty |
| TemplateSync.ProjectCallsFirst | catalyst_center_github_sync.py:108-121 | the project creation is the first write request, iff the project was missing, and is never made again (the repository, commit and project reads come before it) |
| TemplateSync.CreateProjectFirst | catalyst_center_github_sync.py:110-115 | putting the project creation in front of a trace keeps its writes and its commit pairing |
| TemplateSync.SynchroniseShape | catalyst_center_github_sync.py:108-239 | after a sync the project exists (the same one if it existed); one verdict per file in order; the report is the project line (only if it was created) followed by one line per verdict |
| TemplateSync.SynchroniseTrace | catalyst_center_github_sync.py:108-237 | every template write of a sync is committed right after it; one local write per file in order; the project is created first and only if missing |
| TemplateSync.SynchroniseStore | catalyst_center_github_sync.py:125-233 | when the details request reports the stored templates: with distinct template names, a sync leaves every file's composed content on the controller; an already up-to-date controller is left unchanged, with only local writes and every verdict Unchanged |
| TemplateSync.SynchroniseQuiet | catalyst_center_github_sync.py:201-209 | when the details request reports the stored templates, syncing an up-to-date controller makes no write request |
| TemplateSync.SyncTemplates | catalyst_center_github_sync.py:84-239 | stops iff the repository is not among the owner's; stops as empty iff it has no files; stops before any controller request iff some commit's summary raises; otherwise the sync with the commit summaries in commit-list order, with the shape, trace and store properties |
| TemplateSync.SyncProject | catalyst_center_github_sync.py:108-237 | the project step, then the loop over the files, equals the reference sync for the given commit summaries |
| TemplateSync.Reconcile | catalyst_center_github_sync.py:125-237 | the file loop keeps the project and gives one verdict per file, named after the file's template |
| TemplateSync.ReconcileFiles | catalyst_center_github_sync.py:125-237 | the loop computes exactly the reference file loop |
| TemplateSync.ReconcileStep | catalyst_center_github_sync.py:125-237 | one more file extends the loop by one iteration against the details the service then reports for the current templates |
| TemplateSync.ReconcileLines | catalyst_center_github_sync.py:192-233 | the accumulated report is one line per verdict, in order |
| TemplateSync.ReconcileTrace | catalyst_center_github_sync.py:125-237 | the loop's trace commits every write right after it, creates no project, and writes each file locally once, in order |
| TemplateSync.ReconcileWellFormed | catalyst_center_github_sync.py:162-233 | whatever the details request returns, the loop keeps template names and ids unique and below the next id |
| TemplateSync.ReconcileUpToDate | catalyst_center_github_sync.py:162-233 | when the details request reports the stored templates and template names are distinct, after the loop every file's template holds its composed content |
| TemplateSync.ReconcileQuiet | catalyst_center_github_sync.py:201-209 | when the details request reports the stored templates, the loop leaves an up-to-date controller alone: local writes only, all verdicts Unchanged |
| SiteSort.LessIrreflexive | catalyst_center_network_state_sync.py:199 | no name sorts before itself |
| SiteSort.LessTransitive | catalyst_center_network_state_sync.py:199 | Python's string order is transitive |
| SiteSort.LessTotal | catalyst_center_network_state_sync.py:199 | any two distinct names are ordered |
| SiteSort.LessAsymmetric | catalyst_center_network_state_sync.py:199 | the string order is asymmetric |
| SiteSort.NotLessTransitive | catalyst_center_network_state_sync.py:199 | "not after" is transitive |
| SiteSort.Filter | catalyst_center_network_state_sync.py:199 | the sites with one name, in list order, never more than the list |
| SiteSort.InsertMultiset | catalyst_center_network_state_sync.py:199 | insertion adds exactly the inserted site |
| SiteSort.SortMultiset | catalyst_center_network_state_sync.py:199 | the sorted list is a permutation of the input |
| SiteSort.InsertSorted | catalyst_center_network_state_sync.py:199 | insertion keeps a list sorted by name |
| SiteSort.SortSorted | catalyst_center_network_state_sync.py:199 | the result is ascending by name |
| SiteSort.InsertFilter | catalyst_center_network_state_sync.py:199 | for each name, insertion acts like prepending |
| SiteSort.SortFilter | catalyst_center_network_state_sync.py:199 | sites with equal names keep their input order |
| SiteSort.SortIsStable | catalyst_center_network_state_sync.py:199 | the sort is sorted, a permutation and stable |
| SiteSort.SortedFiltersDetermine | catalyst_center_network_state_sync.py:199 | two sorted lists with the same sites per name, in the same order, are equal |
| SiteSort.StableSortUnique | catalyst_center_network_state_sync.py:199 | every sorted, order-preserving rearrangement of the input is the model's sort, so it is the list Python's stable `sorted` returns |
| NetworkStateSync.DeviceCount | catalyst_center_network_state_sync.py:92-94 | the device count is the number under `response`; a response without it, or with a non-number there, is an error |
| NetworkStateSync.Offsets | catalyst_center_network_state_sync.py:97-102 | one request offset per page |
| NetworkStateSync.PageCountBound | catalyst_center_network_state_sync.py:100-102 | page k is requested iff its offset `1 + 500k` is within the count |
| NetworkStateSync.OffsetsInRange | catalyst_center_network_state_sync.py:97-102 | no request for a count of zero or less; otherwise ceil(count / 500) requests at offsets 1, 501, …, each within the count |
| NetworkStateSync.PagesCoverDevices | catalyst_center_network_state_sync.py:97-103 | every device position 1..count falls in exactly one requested page of 500 |
| NetworkStateSync.PagesFailurePersists | catalyst_center_network_state_sync.py:100-103 | a page that raises ends the loop: later pages change nothing |
| NetworkStateSync.PagesSpec | catalyst_center_network_state_sync.py:100-103 | the device list is built iff every page has an iterable `response`; it is then the pages' items joined front to back in request order (`Flatten` of `PageContents`, a definition independent of the back-to-front accumulation of `Pages`) |
| NetworkStateSync.FetchDevices | catalyst_center_network_state_sync.py:97-104 | the loop requests a prefix of the offsets, all of them when it succeeds, and computes the reference device list |
| NetworkStateSync.ParseDeviceSpec | catalyst_center_network_state_sync.py:113-121 | a device is read iff it has all seven fields the loop indexes; its type and family are carried over |
| NetworkStateSync.MapResultSpec | catalyst_center_network_state_sync.py:111-164 | a per-device step succeeds on the whole list iff it succeeds on each device; results are in order |
| NetworkStateSync.PutNewKey | catalyst_center_network_state_sync.py:116-121 | updating a dict with a key it lacks appends the key |
| NetworkStateSync.UpdateAllAppends | catalyst_center_network_state_sync.py:116-137 | a chain of updates with fresh keys appends them in order |
| NetworkStateSync.RecordDistinct | catalyst_center_network_state_sync.py:116-137 | an inventory entry has eight distinct keys, in the order the loop adds them |
| NetworkStateSync.RecordUpdatesInOrder | catalyst_center_network_state_sync.py:116-137 | the loop's chain of `update` calls builds exactly the eight-field entry |
| NetworkStateSync.RecordKeysInOrder | catalyst_center_network_state_sync.py:116-137 | each key of an entry looks up its own field; `device_family` holds the device's `type` |
| NetworkStateSync.SdaRoles | catalyst_center_network_state_sync.py:129-137 | the fabric roles are the lookup's `roles` whenever it answers with them, and otherwise the empty list |
| NetworkStateSync.LastNonApIpSpec | catalyst_center_network_state_sync.py:113-115 | no address is bound iff every earlier device is an access point; otherwise it is the address of the last non-AP device |
| NetworkStateSync.SelectAtPositions | catalyst_center_network_state_sync.py:111-164 | each inventory is the entries of the devices of its kind, in device order |
| NetworkStateSync.PositionsBelow | catalyst_center_network_state_sync.py:111-164 | an inventory lists only devices already visited |
| NetworkStateSync.PositionsAscending | catalyst_center_network_state_sync.py:111-164 | inventory entries keep device order |
| NetworkStateSync.PositionsMembers | catalyst_center_network_state_sync.py:113 | a device goes into the AP inventory iff its family is "Unified AP", and otherwise into the device inventory |
| NetworkStateSync.PositionsCount | catalyst_center_network_state_sync.py:111-164 | together the two inventories have one entry per device |
| NetworkStateSync.SelectStep | catalyst_center_network_state_sync.py:111-164 | one more device updates the bound address (non-AP only) and appends its entry to the inventory of its kind |
| NetworkStateSync.BuildInventories | catalyst_center_network_state_sync.py:108-166 | succeeds iff every device's detail has `response.location`; the two inventories are then the reference selections |
| NetworkStateSync.GlobalSiteId | catalyst_center_network_state_sync.py:185-187 | the Global site id is the string `id` of the first element of the `response` list; a missing key, an empty or non-list `response`, or a non-string id is an error |
| NetworkStateSync.SiteListSpec | catalyst_center_network_state_sync.py:190-196 | the site list is built iff `response` is iterable and every site has a string `siteNameHierarchy` and an `id`; one entry per site, in response order |
| NetworkStateSync.SiteRecord | catalyst_center_network_state_sync.py:195 | a site entry holds exactly the site name and its id, in that key order |
| NetworkStateSync.SettingsRecord | catalyst_center_network_state_sync.py:212-213 | a settings entry holds exactly the site name and its network settings, in that key order |
| NetworkStateSync.CollectNetworkSettings | catalyst_center_network_state_sync.py:207-214 | succeeds iff every sorted site's settings response has `response`; one entry per site, in sorted order, each exactly the settings record of the site's name and its `response` |
| NetworkStateSync.StateFilesContents | catalyst_center_network_state_sync.py:82-84 | the state directory has no `report.json`; it holds the four state files and every other file unchanged |
| NetworkStateSync.CollectedSitesSorted | catalyst_center_network_state_sync.py:199-203 | the snapshot's sites are the controller's sites sorted by name: ascending, a permutation, stable |
| NetworkStateSync.CollectState | catalyst_center_network_state_sync.py:82-219 | collection succeeds iff no response it indexes is malformed; the snapshot is then the collected state (devices, inventories, sorted sites, settings records), and the directory is the old one without the report plus the four files |
| NetworkStateSync.PushAllStep | catalyst_center_network_state_sync.py:236-250 | one more file pushes it against the current tree, with `update` from whether its content could be read, and adds its report line |
| NetworkStateSync.PushAllFailurePersists | catalyst_center_network_state_sync.py:236-250 | a push that raises ends the loop: later files change nothing |
| NetworkStateSync.FileWritesAppend | catalyst_center_network_state_sync.py:247-249 | the writes of a concatenated trace are the writes of each part |
| NetworkStateSync.PushAllReport | catalyst_center_network_state_sync.py:250 | one report line per file, in order, naming the file and its `update` flag |
| NetworkStateSync.PushReportLineInjective | catalyst_center_network_state_sync.py:250 | a push report line determines the file it names and its `str(update)` flag ("True" or "False") |
| NetworkStateSync.PushOneWrite | catalyst_center_network_state_sync.py:237-249 | a successful push writes the file once, with its directory content and the fixed message; it updates iff the file could be read |
| NetworkStateSync.PushAllWrites | catalyst_center_network_state_sync.py:236-249 | one write per listed file, in listing order, each with its directory content |
| NetworkStateSync.PushAllPaths | catalyst_center_network_state_sync.py:236-249 | after the pushes the repository holds exactly its old paths plus the listed files |
| NetworkStateSync.PushAllTree | catalyst_center_network_state_sync.py:236-249 | every listed file holds its directory content; every other path is unchanged |
| NetworkStateSync.PushAllSucceeds | catalyst_center_network_state_sync.py:236-249 | for distinct files, all pushes succeed iff each file can be read exactly when it exists in the repository |
| NetworkStateSync.PushStateFiles | catalyst_center_network_state_sync.py:222-258 | stops iff the repository is not among the private ones; the run completes iff every push succeeds, and a failure is the first push failure; a completed run writes `report.json` with the report lines |
| NetworkStateSync.ReportNeverPushed | catalyst_center_network_state_sync.py:82-84 | the pushes of a collected directory never write `report.json` |
| NetworkStateSync.PushedState | catalyst_center_network_state_sync.py:236-258 | a complete push of a collected directory leaves the four state files in the repository with the dumped collected content, and never writes `report.json` |
| NetworkStateSync.SyncNetworkState | catalyst_center_network_state_sync.py:82-258 | the whole run: it fails in collection iff some collected response is malformed, and otherwise the snapshot is the collected state and its files; it then stops iff the repository is not private; the pushes complete iff every push succeeds; a complete run publishes the four state files with the collected content, never pushes `report.json`, and writes the report |

## Left out

- HTTP requests, authentication headers, the Catalyst Center SDK and the PyGithub client are not modelled. The answers to the READ requests are inputs: response functions or values in `Catalyst`, `Hub` and `Source`. The answers to the template workflow's write requests (`create_project`, `create_template`, `update_template`, `version_template`) are not represented: those requests are recorded in the call trace and taken to succeed. The `taskId` in `create_template`'s answer (source line 174) is only logged, and is not modelled.
- Base64 decoding and `json.dumps` are parameters (`b64decode`, `dumps`). Their algorithms are not modelled.
- Only the file URL of `get_repo_file_content` is modelled, with `FileUrlInjective`. The other request URLs are fixed concatenations that no result depends on.
- Logging, `time.sleep`, the time zone setting and the start and end date stamps are not modelled. They affect no result.
- `os.makedirs`, `os.chdir` and file I/O are not modelled. The state directory is a map from file name to text.
- The `os.listdir` order is the parameter `listing`. `Enumerates` requires it to list the directory's files once each. `ListsStateDirectory` requires the same of the directory after collection: its earlier files except `report.json`, plus the four state files.
- The project and template listings are taken to be current. After `create_project`, the refreshed project listing shows the new project, so `project_info[0]` exists (source lines 116-120). After a template create, the refreshed listing shows the created template (lines 179-183). The source waits ten seconds for that. The details request is an input (`Source.details`) and may lag. The store lemmas assume it reports the stored templates (`ConsistentDetails`).
- Device pagination assumes the server returns exactly 500 devices per full page, since the page request passes no limit. `PagesCoverDevices` is stated for that page size. With fewer per page, devices would be missed; with more, pages would overlap.
- A device count that is not an integer is treated as an error. Python would compare a float or a bool, so that case is not modelled.
- A device's `family` is read as a key. A device without it raises, as `device.family` does on the SDK's dict.
- In the template workflow, repository file bodies are the text `get_repo_file_content` returned. A failure of that call there is not modelled. `GithubApis.GetRepoFileContent` models the call itself.
- The commit list itself is an input. `Source.commits` holds the single-commit responses in commit-list order. `ProjectField` models the extraction of the shas.
- A site's `siteNameHierarchy` must be a string. Python would also sort other keys of one comparable type; those are not modelled.
- NetworkStateSync.CollectState: a failure carries only the error. The source has by then deleted `report.json` (lines 82-84), and may have written `device_inventory.json` and `ap_inventory.json` (lines 169-176). Those partial effects are not returned.
- NetworkStateSync.PushStateFiles: a failed push carries only the error. Files pushed before it stay pushed in the repository; that partial tree is not returned.
- TemplateSync.SyncTemplates: once the project step is reached, the run always ends `Synced`, but the source can still raise there. `create_project`, `create_template`, `update_template` and `version_template` raise on an HTTP error. `project_info[0]` raises IndexError when the refreshed project listing is empty (lines 120 and 180). A `create_template` answer without a string `taskId` raises at lines 174-175; the template is then created and not committed. A details entry without `templateContent` raises at line 203. These failures are not modelled. Neither is the partial trace of the writes made before them, in which the last create may lack its commit. `CommitsFollowWrites` is proved for the runs that complete.
- TemplateSync.SyncFile: one iteration always yields a verdict. The raise sites inside it, at lines 174-175, 180 and 203 and in its write requests, are the ones listed for `TemplateSync.SyncTemplates`; they are not modelled.

=== FILE: github_apis.dfy ===
/**
 * The source-hosting client: the file URL it builds, the way it shapes
 * JSON responses into lists and dicts, the decode-only-if-base64 branch, the
 * commit-metadata extraction and the create-or-update push.  The HTTP
 * transport, authentication headers and the base64 decoder itself are
 * parameters of the model.
 */
module GithubApis {
  import opened Wrappers
  import opened Json

  const GithubUrl: string := "https://api.github.com"
  const MainBranch: string := "main"
  const Base64: string := "base64"

  // ------------------------------------------------------------------ URLs

  /** The request URL of `get_repo_file_content`. */
  function FileUrl(username: string, repo: string, fileName: string): string
  {
    GithubUrl + "/repos/" + username + "/" + repo + "/contents/" + fileName
  }

  /** Position of the first '/' of `s` (or |s| when there is none). */
  function SlashIndex(s: string): (r: nat)
    ensures r <= |s|
    ensures forall i :: 0 <= i < r ==> s[i] != '/'
    ensures r < |s| ==> s[r] == '/'
  {
    if |s| == 0 || s[0] == '/' then 0 else 1 + SlashIndex(s[1..])
  }

  lemma {:induction false} SlashIndexOfJoin(a: string, rest: string)
    requires '/' !in a
    ensures SlashIndex(a + "/" + rest) == |a|
  {
    var s := a + "/" + rest;
    assert s[|a|] == '/';
    assert forall i :: 0 <= i < |a| ==> s[i] == a[i];
  }

  /** A path segment without '/' followed by "/..." can be split back uniquely. */
  lemma SlashSplit(a: string, x: string, b: string, y: string)
    requires '/' !in a && '/' !in b
    requires a + "/" + x == b + "/" + y
    ensures a == b && x == y
  {
    SlashIndexOfJoin(a, x);
    SlashIndexOfJoin(b, y);
    var s := a + "/" + x;
    assert a == s[..|a|];
    assert b == s[..|b|];
    assert x == s[|a| + 1..];
    assert y == (b + "/" + y)[|b| + 1..];
  }

  lemma FileUrlShape(u: string, r: string, f: string)
    ensures FileUrl(u, r, f) == (GithubUrl + "/repos/") + (u + "/" + (r + "/" + ("contents/" + f)))
  {
    var p := GithubUrl + "/repos/";
    var tail := r + "/" + ("contents/" + f);
    calc {
      FileUrl(u, r, f);
      p + u + "/" + r + "/contents/" + f;
      { assert "/contents/" == "/" + "contents/"; }
      p + u + "/" + r + ("/" + "contents/") + f;
      p + (u + "/" + tail);
    }
  }

  /** Distinct (owner, repository, file) triples are fetched from distinct
      URLs, as long as owner and repository names contain no '/'. */
  lemma FileUrlInjective(u1: string, r1: string, f1: string, u2: string, r2: string, f2: string)
    requires '/' !in u1 && '/' !in r1 && '/' !in u2 && '/' !in r2
    requires FileUrl(u1, r1, f1) == FileUrl(u2, r2, f2)
    ensures u1 == u2 && r1 == r2 && f1 == f2
  {
    var p := GithubUrl + "/repos/";
    var t1 := u1 + "/" + (r1 + "/" + ("contents/" + f1));
    var t2 := u2 + "/" + (r2 + "/" + ("contents/" + f2));
    FileUrlShape(u1, r1, f1);
    FileUrlShape(u2, r2, f2);
    assert t1 == (p + t1)[|p|..];
    assert t2 == (p + t2)[|p|..];
    SlashSplit(u1, r1 + "/" + ("contents/" + f1), u2, r2 + "/" + ("contents/" + f2));
    SlashSplit(r1, "contents/" + f1, r2, "contents/" + f2);
    assert f1 == ("contents/" + f1)[9..];
    assert f2 == ("contents/" + f2)[9..];
  }

  // ------------------------------------------------------------ listings

  /** The loop of `get_repos`, `get_private_repos`, `get_repo_content` and
      `get_repo_commits`: collect `element[key]` for every element the
      response iterates over.  It raises (Failure) when the response is not
      iterable or an element cannot be subscripted by `key`. */
  method ProjectField(response: Json, key: string) returns (r: Result<seq<Json>>)
    ensures r.Success? <==>
      && Iterate(response).Some?
      && forall i :: 0 <= i < |Iterate(response).value| ==> Lookup(Iterate(response).value[i], key).Some?
    ensures r.Success? ==> |r.value| == |Iterate(response).value|
    ensures r.Success? ==> forall i :: 0 <= i < |r.value| ==> Lookup(Iterate(response).value[i], key) == Some(r.value[i])
  {
    var elements := Iterate(response);
    if elements.None? {
      return Failure("TypeError: response is not iterable");
    }
    var items := elements.value;
    var acc: seq<Json> := [];
    var i := 0;
    while i < |items|
      invariant 0 <= i <= |items|
      invariant |acc| == i
      invariant forall k :: 0 <= k < i ==> Lookup(items[k], key) == Some(acc[k])
    {
      var field := Lookup(items[i], key);
      if field.None? {
        return Failure("KeyError or TypeError: element has no field " + key);
      }
      acc := acc + [field.value];
      i := i + 1;
    }
    r := Success(acc);
  }

  // --------------------------------------------------------- file content

  /** The two fields `get_repo_file_content` reads from the contents
      response; a field the response lacks is None. */
  datatype FileResponse = FileResponse(content: Option<string>, encoding: Option<string>)

  /** `get_repo_file_content`: raises when the response has no `content`
      (e.g. the 404 body of a missing file); decodes it when, and only when,
      `encoding` is "base64"; otherwise returns it untouched.  `b64decode`
      stands for `base64.b64decode(...).decode()`, None when that raises. */
  function GetRepoFileContent(response: FileResponse, b64decode: string -> Option<string>): (r: Result<string>)
    ensures response.content.None? ==> r.Failure?
    ensures response.content.Some? && response.encoding != Some(Base64) ==> r == Success(response.content.value)
    ensures response.content.Some? && response.encoding == Some(Base64) ==>
      (r.Success? <==> b64decode(response.content.value).Some?) &&
      (r.Success? ==> Some(r.value) == b64decode(response.content.value))
  {
    match response.content
    case None => Failure("KeyError: content")
    case Some(raw) =>
      if response.encoding == Some(Base64) then
        match b64decode(raw)
        case None => Failure("binascii.Error or UnicodeDecodeError")
        case Some(text) => Success(text)
      else Success(raw)
  }

  /** A file served base64-encoded reads back as its original text whenever
      the decoder inverts the encoder (section 4 of RFC 4648). */
  lemma ServedFileReadsBack(text: string, b64encode: string -> string, b64decode: string -> Option<string>)
    requires b64decode(b64encode(text)) == Some(text)
    ensures GetRepoFileContent(FileResponse(Some(b64encode(text)), Some(Base64)), b64decode) == Success(text)
  {
  }

  // ---------------------------------------------------------- commit info

  /** One entry of the commit's `files` list; a key the entry lacks is None. */
  datatype ChangedFile = ChangedFile(filename: Option<string>, patch: Option<string>)

  /** The fields `get_repo_commit_sha` reads from a single-commit response;
      a key the response lacks is None (an error body, from a 404 or a rate
      limit, has none of them).  A response without `files` raises as one
      whose list is empty does. */
  datatype CommitResponse = CommitResponse(
    authorEmail: Option<string>, authorDate: Option<string>, message: Option<string>,
    htmlUrl: Option<string>, files: seq<ChangedFile>)

  /** The dict `get_repo_commit_sha` returns. */
  datatype CommitInfo = CommitInfo(
    filename: string, date: string, message: string, url: string, author: string, diff: string)

  /** `get_repo_commit_sha`: author and date come from `commit.author`; file
      name and diff both come from the FIRST changed file, so a commit without
      changed files raises IndexError; a missing key raises KeyError.  The
      keys are read in the source's order, which decides the error text. */
  function GetRepoCommitSha(response: CommitResponse): (r: Result<CommitInfo>)
    ensures r.Success? <==>
      && response.authorEmail.Some? && response.authorDate.Some? && response.message.Some?
      && response.htmlUrl.Some?
      && |response.files| > 0 && response.files[0].filename.Some? && response.files[0].patch.Some?
    ensures r.Success? ==>
      && Some(r.value.filename) == response.files[0].filename
      && Some(r.value.diff) == response.files[0].patch
      && Some(r.value.author) == response.authorEmail
      && Some(r.value.date) == response.authorDate
      && Some(r.value.message) == response.message
      && Some(r.value.url) == response.htmlUrl
  {
    if response.authorEmail.None? then Failure("KeyError: commit.author.email")
    else if response.authorDate.None? then Failure("KeyError: commit.author.date")
    else if response.message.None? then Failure("KeyError: commit.message")
    else if |response.files| == 0 then Failure("IndexError or KeyError: files[0]")
    else if response.files[0].filename.None? then Failure("KeyError: filename")
    else if response.htmlUrl.None? then Failure("KeyError: html_url")
    else if response.files[0].patch.None? then Failure("KeyError: patch")
    else
      Success(CommitInfo(response.files[0].filename.value, response.authorDate.value,
                         response.message.value, response.htmlUrl.value,
                         response.authorEmail.value, response.files[0].patch.value))
  }

  /** Only the first changed file is looked at: whatever else the commit
      touched does not change the extracted metadata. */
  lemma {:induction false} CommitInfoIgnoresLaterFiles(response: CommitResponse, others: seq<ChangedFile>)
    requires |response.files| > 0
    ensures GetRepoCommitSha(response.(files := [response.files[0]] + others)) == GetRepoCommitSha(response)
  {
    var other := response.(files := [response.files[0]] + others);
    assert other.files[0] == response.files[0];
  }

  // ----------------------------------------------------------------- push

  /** A file on the `main` branch of the destination repository. */
  datatype Blob = Blob(content: string, sha: string)

  datatype PushCall =
    | GetContents(path: string, ref: string)
    | UpdateFile(path: string, message: string, content: string, sha: string, branch: string)
    | CreateFile(path: string, message: string, content: string, branch: string)

  predicate IsFileWrite(c: PushCall)
  {
    c.UpdateFile? || c.CreateFile?
  }

  datatype Pushed = Pushed(tree: map<string, Blob>, calls: seq<PushCall>)

  /** `github_push`: with `update` it reads the current file on `main` for its
      sha and updates the file with that sha; without it, it creates the file.
      Reading a missing file and creating an existing one both raise.
      `newSha` is the sha the service gives the written content. */
  function GithubPush(tree: map<string, Blob>, filename: string, message: string, content: string,
                      update: bool, newSha: string): (r: Result<Pushed>)
    ensures r.Success? <==> (update <==> filename in tree)
    ensures r.Success? ==> r.value.tree == tree[filename := Blob(content, newSha)]
    ensures r.Success? && update ==>
      r.value.calls == [GetContents(filename, MainBranch),
                        UpdateFile(filename, message, content, tree[filename].sha, MainBranch)]
    ensures r.Success? && !update ==> r.value.calls == [CreateFile(filename, message, content, MainBranch)]
  {
    if update then
      if filename !in tree then Failure("UnknownObjectException: " + filename)
      else
        var current := tree[filename];
        Success(Pushed(tree[filename := Blob(content, newSha)],
                       [GetContents(filename, MainBranch),
                        UpdateFile(filename, message, content, current.sha, MainBranch)]))
    else
      if filename in tree then Failure("GithubException 422: " + filename + " already exists")
      else Success(Pushed(tree[filename := Blob(content, newSha)],
                          [CreateFile(filename, message, content, MainBranch)]))
  }

  /** Every successful push writes exactly once, to the pushed path. */
  lemma PushWritesOnce(tree: map<string, Blob>, filename: string, message: string, content: string,
                       update: bool, newSha: string)
    requires GithubPush(tree, filename, message, content, update, newSha).Success?
    ensures var calls := GithubPush(tree, filename, message, content, update, newSha).value.calls;
      |calls| > 0 && IsFileWrite(calls[|calls| - 1]) && calls[|calls| - 1].path == filename &&
      forall i :: 0 <= i < |calls| - 1 ==> !IsFileWrite(calls[i])
  {
  }
}

=== FILE: json.dfy ===
/**
 * JSON values as the Python `json` module and the controller SDK hand them
 * out.  Objects keep their keys in insertion order, like a Python `dict`.
 * A field list may repeat a key, which no Python dict can; `DistinctKeys`
 * says when it does not, and the members that depend on it require it.
 */
module Json {
  import opened Wrappers

  datatype Json =
    | Null
    | Bool(b: bool)
    | Num(n: int)
    | Str(s: string)
    | Arr(items: seq<Json>)
    | Obj(fields: seq<Field>)

  datatype Field = Field(key: string, value: Json)

  /** The keys of an object, in insertion order. */
  function Keys(fields: seq<Field>): seq<string>
  {
    seq(|fields|, i requires 0 <= i < |fields| => fields[i].key)
  }

  /** `d[k]` on a dict: the value stored under `k`, None for a KeyError. */
  function Get(fields: seq<Field>, k: string): Option<Json>
  {
    if |fields| == 0 then None
    else if fields[0].key == k then Some(fields[0].value)
    else Get(fields[1..], k)
  }

  /** `j[k]` on any JSON value: only an object can be subscripted by a key. */
  function Lookup(j: Json, k: string): Option<Json>
  {
    if j.Obj? then Get(j.fields, k) else None
  }

  /** A dict never holds a key twice. */
  predicate DistinctKeys(fields: seq<Field>)
  {
    forall i, j :: 0 <= i < j < |fields| ==> fields[i].key != fields[j].key
  }

  /** In a dict with distinct keys, every field is what its key reads back. */
  lemma {:induction false} GetDistinct(fields: seq<Field>, i: nat)
    requires DistinctKeys(fields) && i < |fields|
    ensures Get(fields, fields[i].key) == Some(fields[i].value)
    decreases i
  {
    if i > 0 {
      assert fields[0].key != fields[i].key;
      GetDistinct(fields[1..], i - 1);
    }
  }

  /** `d.update({k: v})`: an existing key keeps its position and takes the
      new value, a new key is appended after all existing ones. */
  function Put(fields: seq<Field>, k: string, v: Json): (r: seq<Field>)
    ensures k in Keys(fields) ==> Keys(r) == Keys(fields)
    ensures k !in Keys(fields) ==> Keys(r) == Keys(fields) + [k]
    ensures Get(r, k) == Some(v)
    ensures forall k' :: k' != k ==> Get(r, k') == Get(fields, k')
  {
    if |fields| == 0 then [Field(k, v)]
    else if fields[0].key == k then
      assert Keys(fields)[0] == k;
      assert Keys([Field(k, v)] + fields[1..]) == Keys(fields);
      [Field(k, v)] + fields[1..]
    else
      var rest := Put(fields[1..], k, v);
      assert Keys(fields) == [fields[0].key] + Keys(fields[1..]);
      assert Keys([fields[0]] + rest) == [fields[0].key] + Keys(rest);
      assert ([fields[0]] + rest)[1..] == rest;
      [fields[0]] + rest
  }

  /** What a Python `for x in j` loop visits: the items of a list, the keys of
      a dict, the characters of a string; None when `j` is not iterable. */
  function Iterate(j: Json): (r: Option<seq<Json>>)
    ensures j.Arr? ==> r == Some(j.items)
    ensures j.Obj? ==>
      && r.Some? && |r.value| == |j.fields|
      && forall i :: 0 <= i < |j.fields| ==> r.value[i] == Str(j.fields[i].key)
    ensures j.Str? ==>
      && r.Some? && |r.value| == |j.s|
      && forall i :: 0 <= i < |j.s| ==> r.value[i] == Str([j.s[i]])
    ensures (j.Null? || j.Bool? || j.Num?) ==> r.None?
  {
    match j
    case Arr(items) => Some(items)
    case Obj(fields) => Some(seq(|fields|, i requires 0 <= i < |fields| => Str(fields[i].key)))
    case Str(s) => Some(seq(|s|, i requires 0 <= i < |s| => Str([s[i]])))
    case _ => None
  }
}

=== FILE: network_state_sync.dfy ===
/**
 * The network state snapshot: collect the controller's device inventory
 * page by page, split it into a device and an access point inventory,
 * snapshot the site hierarchy sorted by name and the network settings of
 * every site, write the state files, and push every file of the state
 * directory to the destination repository with a one-line report per file.
 *
 * The controller's answers are fields of `Catalyst`; the destination
 * repository is a `Hub`; JSON serialisation is the oracle `dumps`.
 */
module NetworkStateSync {
  import opened Wrappers
  import opened Json
  import opened GithubApis
  import opened SiteSort
  import opened Text

  /** The controller as the script sees it: the `get_device_count`
      response, one response per `get_device_list(offset)`, one per
      `get_device_detail` (keyed by device id), the fabric-role lookup (keyed
      by management address, None when the call raises), the
      `get_site_count`, `get_site(name='Global')` and `get_site()` responses,
      and one `get_network_v2` response per site id. */
  datatype Catalyst = Catalyst(
    deviceCount: Json,
    devicePage: int -> Json,
    deviceDetail: Json -> Json,
    fabricRoles: Json -> Option<Json>,
    siteCount: Json,
    globalSite: Json,
    sites: Json,
    networkSettings: Json -> Json)

  /** `get_device_count()['response']`; the model reads it as an integer
      and treats anything else as an error. */
  function DeviceCount(response: Json): (r: Option<int>)
    ensures r.Some? <==> Lookup(response, "response").Some? && Lookup(response, "response").value.Num?
    ensures r.Some? ==> Lookup(response, "response") == Some(Num(r.value))
  {
    match Lookup(response, "response")
    case Some(Num(n)) => Some(n)
    case _ => None
  }

  /** `get_site(name='Global')['response'][0]['id']`, which the script then
      concatenates into a log line: it must be a string. */
  function GlobalSiteId(response: Json): (r: Option<string>)
    ensures r.Some? <==>
      var v := Lookup(response, "response");
      && v.Some? && v.value.Arr? && |v.value.items| > 0
      && Lookup(v.value.items[0], "id").Some? && Lookup(v.value.items[0], "id").value.Str?
    ensures r.Some? ==> Lookup(Lookup(response, "response").value.items[0], "id") == Some(Str(r.value))
  {
    match Lookup(response, "response")
    case Some(Arr(items)) =>
      if |items| == 0 then None
      else (match Lookup(items[0], "id") case Some(Str(id)) => Some(id) case _ => None)
    case _ => None
  }

  // -------------------------------------------------------------- pagination

  /** The `limit` the offset advances by.  `get_device_list` itself is called
      without a limit; the coverage lemma takes the controller's page to be
      this long. */
  const PageSize: nat := 500

  /** The number of `get_device_list` requests for `count` devices. */
  function PageCount(count: int): nat
  {
    if count <= 0 then 0 else (count - 1) / PageSize + 1
  }

  /** The offsets requested, in order: 1, 501, 1001, ... */
  function Offsets(count: int): (r: seq<int>)
    ensures |r| == PageCount(count)
  {
    seq(PageCount(count), k => 1 + PageSize * k)
  }

  /** The loop guard `offset <= device_count` holds for the k-th offset
      exactly while fewer than `PageCount` pages have been requested. */
  lemma PageCountBound(count: int, k: nat)
    ensures 1 + PageSize * k <= count <==> k < PageCount(count)
  {
    if count > 0 {
      var q := (count - 1) / PageSize;
      assert PageSize * q <= count - 1 < PageSize * (q + 1);
      if k <= q {
        assert PageSize * k <= PageSize * q;
      } else {
        assert PageSize * k >= PageSize * (q + 1);
      }
    }
  }

  /** PageCount is count/500 rounded up, and every requested offset is of the
      form 1 + 500k and at most the device count. */
  lemma OffsetsInRange(count: int)
    ensures count <= 0 ==> Offsets(count) == []
    ensures count > 0 ==> PageSize * (PageCount(count) - 1) < count <= PageSize * PageCount(count)
    ensures forall k :: 0 <= k < |Offsets(count)| ==> Offsets(count)[k] == 1 + PageSize * k && 1 <= Offsets(count)[k] <= count
  {
    if count > 0 {
      PageCountBound(count, PageCount(count) - 1);
      PageCountBound(count, PageCount(count));
    }
    forall k | 0 <= k < |Offsets(count)|
      ensures Offsets(count)[k] <= count
    {
      PageCountBound(count, k);
    }
  }

  /** With pages of `PageSize` devices, device number j (counting from 1, as
      the offsets do) lies in exactly one requested page: the one at index
      (j - 1) / 500. */
  lemma PagesCoverDevices(count: int, j: int)
    requires 1 <= j <= count
    ensures var k := (j - 1) / PageSize;
      k < |Offsets(count)| && Offsets(count)[k] <= j < Offsets(count)[k] + PageSize
    ensures forall k :: 0 <= k < |Offsets(count)| && Offsets(count)[k] <= j < Offsets(count)[k] + PageSize ==>
      k == (j - 1) / PageSize
  {
    var q := (j - 1) / PageSize;
    assert PageSize * q <= j - 1 < PageSize * (q + 1);
    PageCountBound(count, q);
  }

  /** `response['response']` of one page, iterated the way `list.extend`
      iterates it; None when the page has no such field or it is not
      iterable. */
  function PageItems(response: Json): Option<seq<Json>>
  {
    match Lookup(response, "response")
    case None => None
    case Some(v) => Iterate(v)
  }

  /** The device list the pages at `offsets` give, concatenated in request
      order; the first page that cannot be read ends the run. */
  function Pages(page: int -> Json, offsets: seq<int>): Result<seq<Json>>
    decreases |offsets|
  {
    if |offsets| == 0 then Success([])
    else match Pages(page, offsets[..|offsets| - 1])
      case Failure(e) => Failure(e)
      case Success(acc) =>
        match PageItems(page(offsets[|offsets| - 1]))
        case None => Failure("KeyError or TypeError: unreadable device page")
        case Some(items) => Success(acc + items)
  }

  lemma {:induction false} PagesFailurePersists(page: int -> Json, offsets: seq<int>, n: nat)
    requires n <= |offsets|
    requires Pages(page, offsets[..n]).Failure?
    ensures Pages(page, offsets) == Pages(page, offsets[..n])
    decreases |offsets|
  {
    if n < |offsets| {
      var init := offsets[..|offsets| - 1];
      assert init[..n] == offsets[..n];
      PagesFailurePersists(page, init, n);
    } else {
      assert offsets[..n] == offsets;
    }
  }

  /** The devices of each requested page, in request order (an unreadable
      page contributes none). */
  function PageContents(page: int -> Json, offsets: seq<int>): (r: seq<seq<Json>>)
    ensures |r| == |offsets|
    ensures forall k :: 0 <= k < |offsets| && PageItems(page(offsets[k])).Some? ==>
      r[k] == PageItems(page(offsets[k])).value
  {
    seq(|offsets|, k requires 0 <= k < |offsets| =>
      match PageItems(page(offsets[k])) case Some(items) => items case None => [])
  }

  /** The lists of `xss` joined front to back. */
  function Flatten(xss: seq<seq<Json>>): seq<Json>
  {
    if |xss| == 0 then [] else xss[0] + Flatten(xss[1..])
  }

  lemma {:induction false} FlattenSnoc(xss: seq<seq<Json>>, ys: seq<Json>)
    ensures Flatten(xss + [ys]) == Flatten(xss) + ys
  {
    if |xss| > 0 {
      assert (xss + [ys])[1..] == xss[1..] + [ys];
      FlattenSnoc(xss[1..], ys);
    }
  }

  /** The device list is read without error exactly when every page is
      readable, and it is then every page's devices, joined in request order. */
  lemma {:induction false} PagesSpec(page: int -> Json, offsets: seq<int>)
    ensures Pages(page, offsets).Success? <==> forall k :: 0 <= k < |offsets| ==> PageItems(page(offsets[k])).Some?
    ensures Pages(page, offsets).Success? && |offsets| > 0 ==>
      Pages(page, offsets).value ==
        Pages(page, offsets[..|offsets| - 1]).value + PageItems(page(offsets[|offsets| - 1])).value
    ensures Pages(page, offsets).Success? ==> Pages(page, offsets).value == Flatten(PageContents(page, offsets))
    decreases |offsets|
  {
    if |offsets| > 0 {
      var init := offsets[..|offsets| - 1];
      PagesSpec(page, init);
      assert forall k :: 0 <= k < |init| ==> init[k] == offsets[k];
      if Pages(page, offsets).Success? {
        var last := PageItems(page(offsets[|offsets| - 1])).value;
        assert PageContents(page, offsets) == PageContents(page, init) + [last];
        FlattenSnoc(PageContents(page, init), last);
      }
    }
  }

  /** The pagination loop: start at offset 1, request a page, advance by 500,
      stop once the offset passes the device count.  `requested` is the list
      of offsets asked for. */
  method FetchDevices(count: int, page: int -> Json) returns (r: Result<seq<Json>>, requested: seq<int>)
    ensures requested <= Offsets(count)
    ensures r.Success? ==> requested == Offsets(count)
    ensures r == Pages(page, Offsets(count))
  {
    var offset := 1;
    var devices: seq<Json> := [];
    requested := [];
    while offset <= count
      invariant |requested| <= PageCount(count)
      invariant offset == 1 + PageSize * |requested|
      invariant requested == Offsets(count)[..|requested|]
      invariant Pages(page, requested) == Success(devices)
      decreases count - offset
    {
      PageCountBound(count, |requested|);
      var items := PageItems(page(offset));
      assert Offsets(count)[..|requested| + 1] == requested + [offset];
      requested := requested + [offset];
      if items.None? {
        PagesFailurePersists(page, Offsets(count), |requested|);
        return Failure("KeyError or TypeError: unreadable device page"), requested;
      }
      offset := offset + PageSize;
      devices := devices + items.value;
    }
    PageCountBound(count, |requested|);
    assert requested == Offsets(count);
    r := Success(devices);
  }

  // ----------------------------------------------------------------- devices

  /** The fields the script reads from a device of the list.  `type` is the
      field written out as `device_family`. */
  datatype Device = Device(
    family: Json, id: Json, managementIpAddress: Json, hostname: Json,
    softwareVersion: Json, deviceType: Json, role: Json)

  const DeviceKeys: seq<string> :=
    ["family", "id", "managementIpAddress", "hostname", "softwareVersion", "type", "role"]

  /** The field accesses of one loop iteration: any of the seven fields
      missing raises and ends the run. */
  function ParseDevice(j: Json): Result<Device>
  {
    var family, id, ip := Lookup(j, "family"), Lookup(j, "id"), Lookup(j, "managementIpAddress");
    var hostname, version, kind, role := Lookup(j, "hostname"), Lookup(j, "softwareVersion"), Lookup(j, "type"), Lookup(j, "role");
    if family.None? || id.None? || ip.None? || hostname.None? || version.None? || kind.None? || role.None? then
      Failure("KeyError: device field missing")
    else
      Success(Device(family.value, id.value, ip.value, hostname.value, version.value, kind.value, role.value))
  }

  /** A device parses exactly when it has all seven fields; `type` becomes
      the device type and `family` the family. */
  lemma ParseDeviceSpec(j: Json)
    ensures ParseDevice(j).Success? <==> forall k :: k in DeviceKeys ==> Lookup(j, k).Some?
    ensures ParseDevice(j).Success? ==>
      Some(ParseDevice(j).value.deviceType) == Lookup(j, "type") && Some(ParseDevice(j).value.family) == Lookup(j, "family")
  {
    if !ParseDevice(j).Success? {
      var missing :| missing in DeviceKeys && Lookup(j, missing).None?;
    }
  }

  /** Applies `f` to every item in order; the first failure ends the run. */
  function MapResult<T>(f: Json -> Result<T>, items: seq<Json>): Result<seq<T>>
    decreases |items|
  {
    if |items| == 0 then Success([])
    else match MapResult(f, items[..|items| - 1])
      case Failure(e) => Failure(e)
      case Success(acc) =>
        match f(items[|items| - 1])
        case Failure(e) => Failure(e)
        case Success(v) => Success(acc + [v])
  }

  lemma {:induction false} MapResultSpec<T>(f: Json -> Result<T>, items: seq<Json>)
    ensures MapResult(f, items).Success? <==> forall i :: 0 <= i < |items| ==> f(items[i]).Success?
    ensures MapResult(f, items).Success? ==>
      |MapResult(f, items).value| == |items| &&
      forall i :: 0 <= i < |items| ==> MapResult(f, items).value[i] == f(items[i]).value
    decreases |items|
  {
    if |items| > 0 {
      var init := items[..|items| - 1];
      MapResultSpec(f, init);
      assert forall i :: 0 <= i < |init| ==> init[i] == items[i];
    }
  }

  predicate IsAccessPoint(d: Device)
  {
    d.family == Str("Unified AP")
  }

  /** The keys of an inventory entry, in the order the script inserts them. */
  const RecordKeys: seq<string> :=
    ["hostname", "device_ip", "device_id", "version", "device_family", "role", "site", "sda_roles"]

  /** An inventory entry as `json.dumps` sees it: a dict in insertion order. */
  function DeviceRecord(d: Device, site: Json, roles: Json): seq<Field>
  {
    [Field("hostname", d.hostname), Field("device_ip", d.managementIpAddress), Field("device_id", d.id),
     Field("version", d.softwareVersion), Field("device_family", d.deviceType), Field("role", d.role),
     Field("site", site), Field("sda_roles", roles)]
  }

  /** `d.update({k: v})` for every field of `updates`, in order. */
  function UpdateAll(d: seq<Field>, updates: seq<Field>): seq<Field>
    decreases |updates|
  {
    if |updates| == 0 then d else UpdateAll(Put(d, updates[0].key, updates[0].value), updates[1..])
  }

  /** The dict the script builds: `{'hostname': ...}` followed by one
      `update` per further field. */
  function RecordUpdates(d: Device, site: Json, roles: Json): seq<Field>
  {
    UpdateAll([Field("hostname", d.hostname)],
              [Field("device_ip", d.managementIpAddress), Field("device_id", d.id),
               Field("version", d.softwareVersion), Field("device_family", d.deviceType),
               Field("role", d.role), Field("site", site), Field("sda_roles", roles)])
  }

  lemma {:induction false} PutNewKey(fields: seq<Field>, k: string, v: Json)
    requires forall i :: 0 <= i < |fields| ==> fields[i].key != k
    ensures Put(fields, k, v) == fields + [Field(k, v)]
    decreases |fields|
  {
    if |fields| > 0 {
      PutNewKey(fields[1..], k, v);
      assert [fields[0]] + (fields[1..] + [Field(k, v)]) == fields + [Field(k, v)];
    }
  }

  /** Updates with keys new to the dict and to each other append, in order. */
  lemma {:induction false} UpdateAllAppends(d: seq<Field>, updates: seq<Field>)
    requires DistinctKeys(d + updates)
    ensures UpdateAll(d, updates) == d + updates
    decreases |updates|
  {
    if |updates| > 0 {
      var all := d + updates;
      assert forall i :: 0 <= i < |d| ==> d[i] == all[i];
      assert updates[0] == all[|d|];
      PutNewKey(d, updates[0].key, updates[0].value);
      assert (d + [updates[0]]) + updates[1..] == all;
      UpdateAllAppends(d + [updates[0]], updates[1..]);
    }
  }

  lemma RecordDistinct(d: Device, site: Json, roles: Json)
    ensures DistinctKeys(DeviceRecord(d, site, roles))
    ensures Keys(DeviceRecord(d, site, roles)) == RecordKeys
  {
  }

  /** Every update adds a new key, so the dict the script builds is the
      entry with its eight fields in insertion order. */
  lemma RecordUpdatesInOrder(d: Device, site: Json, roles: Json)
    ensures RecordUpdates(d, site, roles) == DeviceRecord(d, site, roles)
  {
    var all := DeviceRecord(d, site, roles);
    RecordDistinct(d, site, roles);
    assert all == all[..1] + all[1..];
    UpdateAllAppends(all[..1], all[1..]);
  }

  /** The entry's keys, in order: hostname, device_ip, device_id, version,
      device_family, role, site, sda_roles, each read back as the value
      stored under it; `device_family` holds the device's `type`, not its
      `family`. */
  lemma RecordKeysInOrder(d: Device, site: Json, roles: Json)
    ensures Keys(DeviceRecord(d, site, roles)) == RecordKeys
    ensures forall i :: 0 <= i < |RecordKeys| ==>
      Get(DeviceRecord(d, site, roles), RecordKeys[i]) == Some(DeviceRecord(d, site, roles)[i].value)
    ensures Get(DeviceRecord(d, site, roles), "device_family") == Some(d.deviceType)
  {
    var all := DeviceRecord(d, site, roles);
    RecordDistinct(d, site, roles);
    forall i | 0 <= i < |RecordKeys|
      ensures Get(all, RecordKeys[i]) == Some(all[i].value)
    {
      GetDistinct(all, i);
    }
    assert RecordKeys[4] == "device_family";
  }

  /** `response['response']['location']` of the device detail. */
  function DeviceSite(detail: Json): Option<Json>
  {
    match Lookup(detail, "response")
    case None => None
    case Some(v) => Lookup(v, "location")
  }

  /** `device_sda_roles`: the `roles` of the fabric lookup for `ip`, and the
      empty list when there is no address bound yet (the NameError), when the
      call raises, or when its answer has no `roles`; the bare `except`
      catches all three. */
  function SdaRoles(fabricRoles: Json -> Option<Json>, ip: Option<Json>): (r: Json)
    ensures r != Arr([]) ==>
      ip.Some? && fabricRoles(ip.value).Some? && Lookup(fabricRoles(ip.value).value, "roles") == Some(r)
    ensures ip.Some? && fabricRoles(ip.value).Some? && Lookup(fabricRoles(ip.value).value, "roles").Some? ==>
      Lookup(fabricRoles(ip.value).value, "roles") == Some(r)
  {
    if ip.None? then Arr([])
    else match fabricRoles(ip.value)
      case None => Arr([])
      case Some(response) =>
        match Lookup(response, "roles")
        case None => Arr([])
        case Some(roles) => roles
  }

  // ------------------------------------------------------------ inventories

  /** The address the loop variable `device_management_ip_address` holds
      after the given devices: that of the last non-AP device, None while
      it is unbound. */
  function LastNonApIp(ds: seq<Device>): Option<Json>
    decreases |ds|
  {
    if |ds| == 0 then None
    else if !IsAccessPoint(ds[|ds| - 1]) then Some(ds[|ds| - 1].managementIpAddress)
    else LastNonApIp(ds[..|ds| - 1])
  }

  /** LastNonApIp is the address of the most recent non-AP device, and None
      exactly when every device so far is an access point. */
  lemma {:induction false} LastNonApIpSpec(ds: seq<Device>)
    ensures LastNonApIp(ds).None? <==> forall i :: 0 <= i < |ds| ==> IsAccessPoint(ds[i])
    ensures LastNonApIp(ds).Some? ==>
      exists i :: 0 <= i < |ds| && !IsAccessPoint(ds[i]) && LastNonApIp(ds) == Some(ds[i].managementIpAddress) &&
        forall j :: i < j < |ds| ==> IsAccessPoint(ds[j])
    decreases |ds|
  {
    if |ds| > 0 {
      var init := ds[..|ds| - 1];
      LastNonApIpSpec(init);
      assert forall i :: 0 <= i < |init| ==> init[i] == ds[i];
      if !IsAccessPoint(ds[|ds| - 1]) {
        assert !IsAccessPoint(ds[|ds| - 1]) && LastNonApIp(ds) == Some(ds[|ds| - 1].managementIpAddress);
      } else if LastNonApIp(init).Some? {
        var i :| 0 <= i < |init| && !IsAccessPoint(init[i]) && LastNonApIp(init) == Some(init[i].managementIpAddress) &&
          forall j :: i < j < |init| ==> IsAccessPoint(init[j]);
        assert forall j :: i < j < |ds| ==> IsAccessPoint(ds[j]);
      }
    }
  }

  /** The address the fabric-role query of device i uses: its own for a
      non-AP device; for an access point, whatever the previous non-AP
      device left in the variable, since that branch never assigns it. */
  function FabricIp(ds: seq<Device>, i: nat): Option<Json>
    requires i < |ds|
  {
    if IsAccessPoint(ds[i]) then LastNonApIp(ds[..i]) else Some(ds[i].managementIpAddress)
  }

  /** Every one of the first n devices has a site in its detail response. */
  predicate Located(cat: Catalyst, ds: seq<Device>, n: nat)
    requires n <= |ds|
  {
    forall i :: 0 <= i < n ==> DeviceSite(cat.deviceDetail(ds[i].id)).Some?
  }

  /** The inventory entry of device i. */
  function Entry(cat: Catalyst, ds: seq<Device>, i: nat): seq<Field>
    requires i < |ds| && DeviceSite(cat.deviceDetail(ds[i].id)).Some?
  {
    DeviceRecord(ds[i], DeviceSite(cat.deviceDetail(ds[i].id)).value, SdaRoles(cat.fabricRoles, FabricIp(ds, i)))
  }

  /** The entries of the first n devices that are access points (`ap`) or
      that are not (`!ap`), in device order. */
  function Select(cat: Catalyst, ds: seq<Device>, ap: bool, n: nat): seq<seq<Field>>
    requires n <= |ds| && Located(cat, ds, n)
  {
    if n == 0 then []
    else Select(cat, ds, ap, n - 1) + (if IsAccessPoint(ds[n - 1]) == ap then [Entry(cat, ds, n - 1)] else [])
  }

  /** The positions among the first n devices that are access points (`ap`)
      or that are not (`!ap`), ascending. */
  function Positions(ds: seq<Device>, ap: bool, n: nat): seq<nat>
    requires n <= |ds|
  {
    if n == 0 then []
    else Positions(ds, ap, n - 1) + (if IsAccessPoint(ds[n - 1]) == ap then [n - 1] else [])
  }

  /** Each inventory is the entries of its devices, in device order. */
  lemma {:induction false} SelectAtPositions(cat: Catalyst, ds: seq<Device>, ap: bool, n: nat)
    requires n <= |ds| && Located(cat, ds, n)
    ensures |Select(cat, ds, ap, n)| == |Positions(ds, ap, n)|
    ensures forall k :: 0 <= k < |Positions(ds, ap, n)| ==>
      Positions(ds, ap, n)[k] < n && Select(cat, ds, ap, n)[k] == Entry(cat, ds, Positions(ds, ap, n)[k])
  {
    if n > 0 {
      SelectAtPositions(cat, ds, ap, n - 1);
    }
  }

  lemma {:induction false} PositionsBelow(ds: seq<Device>, ap: bool, n: nat)
    requires n <= |ds|
    ensures forall k :: 0 <= k < |Positions(ds, ap, n)| ==> Positions(ds, ap, n)[k] < n
  {
    if n > 0 {
      PositionsBelow(ds, ap, n - 1);
    }
  }

  /** Each position list is ascending: relative device order is kept. */
  lemma {:induction false} PositionsAscending(ds: seq<Device>, ap: bool, n: nat)
    requires n <= |ds|
    ensures forall k, l :: 0 <= k < l < |Positions(ds, ap, n)| ==> Positions(ds, ap, n)[k] < Positions(ds, ap, n)[l]
  {
    if n > 0 {
      PositionsAscending(ds, ap, n - 1);
      PositionsBelow(ds, ap, n - 1);
    }
  }

  /** A device is in the AP list exactly when it is an access point, and in
      the device list exactly when it is not. */
  lemma {:induction false} PositionsMembers(ds: seq<Device>, ap: bool, n: nat)
    requires n <= |ds|
    ensures forall i :: 0 <= i < n ==> (i in Positions(ds, ap, n) <==> IsAccessPoint(ds[i]) == ap)
  {
    if n > 0 {
      PositionsMembers(ds, ap, n - 1);
      PositionsBelow(ds, ap, n - 1);
    }
  }

  /** Together the two lists hold every device once. */
  lemma {:induction false} PositionsCount(ds: seq<Device>, n: nat)
    requires n <= |ds|
    ensures |Positions(ds, false, n)| + |Positions(ds, true, n)| == n
  {
    if n > 0 {
      PositionsCount(ds, n - 1);
    }
  }

  /** One iteration of the inventory loop. */
  lemma SelectStep(cat: Catalyst, ds: seq<Device>, i: nat, ip: Option<Json>)
    requires i < |ds| && Located(cat, ds, i + 1)
    requires ip == LastNonApIp(ds[..i])
    ensures var ip' := if IsAccessPoint(ds[i]) then ip else Some(ds[i].managementIpAddress);
      var entry := DeviceRecord(ds[i], DeviceSite(cat.deviceDetail(ds[i].id)).value, SdaRoles(cat.fabricRoles, ip'));
      && ip' == LastNonApIp(ds[..i + 1])
      && Select(cat, ds, false, i + 1) == Select(cat, ds, false, i) + (if IsAccessPoint(ds[i]) then [] else [entry])
      && Select(cat, ds, true, i + 1) == Select(cat, ds, true, i) + (if IsAccessPoint(ds[i]) then [entry] else [])
  {
    assert ds[..i + 1][..i] == ds[..i];
  }

  datatype Inventories = Inventories(devices: seq<seq<Field>>, aps: seq<seq<Field>>)

  /** The inventory loop: non-AP devices bind the management address and
      go to the device inventory, access points go to the AP inventory and
      query the fabric with whatever address is bound. */
  method BuildInventories(cat: Catalyst, ds: seq<Device>) returns (r: Result<Inventories>)
    ensures r.Success? <==> Located(cat, ds, |ds|)
    ensures r.Success? ==> r.value.devices == Select(cat, ds, false, |ds|) && r.value.aps == Select(cat, ds, true, |ds|)
  {
    var ip: Option<Json> := None;
    var devices: seq<seq<Field>> := [];
    var aps: seq<seq<Field>> := [];
    var i := 0;
    while i < |ds|
      invariant 0 <= i <= |ds|
      invariant Located(cat, ds, i)
      invariant ip == LastNonApIp(ds[..i])
      invariant devices == Select(cat, ds, false, i) && aps == Select(cat, ds, true, i)
    {
      var d := ds[i];
      var site := DeviceSite(cat.deviceDetail(d.id));
      if site.None? {
        return Failure("KeyError or TypeError: device detail without location");
      }
      SelectStep(cat, ds, i, ip);
      if !IsAccessPoint(d) {
        ip := Some(d.managementIpAddress);
        devices := devices + [DeviceRecord(d, site.value, SdaRoles(cat.fabricRoles, ip))];
      } else {
        aps := aps + [DeviceRecord(d, site.value, SdaRoles(cat.fabricRoles, ip))];
      }
      i := i + 1;
    }
    assert ds[..i] == ds;
    r := Success(Inventories(devices, aps));
  }

  // ------------------------------------------------------------------ sites

  /** One element of `get_site()['response']` projected to its name and
      id; a missing field raises, and so does a name that is not a string
      (the model orders names as strings only). */
  function ParseSite(j: Json): Result<Site>
  {
    match (Lookup(j, "siteNameHierarchy"), Lookup(j, "id"))
    case (Some(Str(name)), Some(id)) => Success(Site(name, id))
    case _ => Failure("KeyError or TypeError: site without name or id")
  }

  /** `site_list`: every site of the response projected, in response order. */
  function SiteList(response: Json): Result<seq<Site>>
  {
    match Lookup(response, "response")
    case None => Failure("KeyError: response")
    case Some(v) =>
      match Iterate(v)
      case None => Failure("TypeError: site list is not iterable")
      case Some(items) => MapResult(ParseSite, items)
  }

  /** The site list holds one (name, id) pair per listed site, in response
      order, and exists only when every site has both fields. */
  lemma SiteListSpec(response: Json)
    ensures SiteList(response).Success? <==>
      && Lookup(response, "response").Some?
      && Iterate(Lookup(response, "response").value).Some?
      && forall i :: 0 <= i < |Iterate(Lookup(response, "response").value).value| ==>
           ParseSite(Iterate(Lookup(response, "response").value).value[i]).Success?
    ensures SiteList(response).Success? ==>
      var items := Iterate(Lookup(response, "response").value).value;
      |SiteList(response).value| == |items| &&
      forall i :: 0 <= i < |items| ==>
        Lookup(items[i], "siteNameHierarchy") == Some(Str(SiteList(response).value[i].name)) &&
        Lookup(items[i], "id") == Some(SiteList(response).value[i].id)
  {
    var v := Lookup(response, "response");
    if v.Some? && Iterate(v.value).Some? {
      MapResultSpec(ParseSite, Iterate(v.value).value);
    }
  }

  /** An entry of the site hierarchy file. */
  function SiteRecord(s: Site): (r: Json)
    ensures r.Obj? && Keys(r.fields) == ["site_name_hierarchy", "site_id"]
    ensures Lookup(r, "site_name_hierarchy") == Some(Str(s.name)) && Lookup(r, "site_id") == Some(s.id)
  {
    var fields := [Field("site_name_hierarchy", Str(s.name)), Field("site_id", s.id)];
    assert "site_name_hierarchy"[5] != "site_id"[5];
    assert Get(fields[1..], "site_id") == Some(s.id);
    Obj(fields)
  }

  /** An entry of the network settings file: the dict
      `{'site_name_hierarchy': name}` updated with the settings. */
  function SettingsRecord(name: string, settings: Json): (r: Json)
    ensures r.Obj? && Keys(r.fields) == ["site_name_hierarchy", "network_settings"]
    ensures Lookup(r, "site_name_hierarchy") == Some(Str(name)) && Lookup(r, "network_settings") == Some(settings)
  {
    var d := [Field("site_name_hierarchy", Str(name))];
    assert Keys(d) == ["site_name_hierarchy"];
    Obj(Put(d, "network_settings", settings))
  }

  /** The settings loop: one `get_network_v2` per sorted site, in order; a
      response without `response` raises. */
  method CollectNetworkSettings(networkSettings: Json -> Json, sorted: seq<Site>) returns (r: Result<seq<Json>>)
    ensures r.Success? <==> forall i :: 0 <= i < |sorted| ==> Lookup(networkSettings(sorted[i].id), "response").Some?
    ensures r.Success? ==> |r.value| == |sorted|
    ensures r.Success? ==> forall i :: 0 <= i < |sorted| ==>
      r.value[i] == SettingsRecord(sorted[i].name, Lookup(networkSettings(sorted[i].id), "response").value)
    ensures r.Success? ==> forall i :: 0 <= i < |sorted| ==>
      && Lookup(r.value[i], "site_name_hierarchy") == Some(Str(sorted[i].name))
      && Lookup(r.value[i], "network_settings") == Lookup(networkSettings(sorted[i].id), "response")
  {
    var acc: seq<Json> := [];
    var i := 0;
    while i < |sorted|
      invariant 0 <= i <= |sorted| && |acc| == i
      invariant forall k :: 0 <= k < i ==> Lookup(networkSettings(sorted[k].id), "response").Some?
      invariant forall k :: 0 <= k < i ==>
        acc[k] == SettingsRecord(sorted[k].name, Lookup(networkSettings(sorted[k].id), "response").value)
    {
      var settings := Lookup(networkSettings(sorted[i].id), "response");
      if settings.None? {
        return Failure("KeyError: response");
      }
      acc := acc + [SettingsRecord(sorted[i].name, settings.value)];
      i := i + 1;
    }
    r := Success(acc);
  }

  // ------------------------------------------------------------- state files

  const DeviceInventoryFile: string := "device_inventory.json"
  const ApInventoryFile: string := "ap_inventory.json"
  const SiteHierarchyFile: string := "site_hierarchy.json"
  const NetworkSettingsFile: string := "network_settings.json"
  const ReportFile: string := "report.json"

  /** What the collection phase gathers: the parsed device list, the two
      inventories, the sorted site list and the network settings. */
  datatype State = State(devices: seq<Device>, inventory: Inventories, sites: seq<Site>, settings: seq<Json>)

  function Objects(records: seq<seq<Field>>): seq<Json>
  {
    seq(|records|, i requires 0 <= i < |records| => Obj(records[i]))
  }

  function SiteRecords(sites: seq<Site>): seq<Json>
  {
    seq(|sites|, i requires 0 <= i < |sites| => SiteRecord(sites[i]))
  }

  /** The state directory (file name to text) after the collection phase:
      the old report deleted and the four state files written. */
  function StateFiles(dir: map<string, string>, st: State, dumps: Json -> string): map<string, string>
  {
    (dir - {ReportFile})
      [DeviceInventoryFile := dumps(Arr(Objects(st.inventory.devices)))]
      [ApInventoryFile := dumps(Arr(Objects(st.inventory.aps)))]
      [SiteHierarchyFile := dumps(Arr(SiteRecords(st.sites)))]
      [NetworkSettingsFile := dumps(Arr(st.settings))]
  }

  /** After the collection phase the directory holds the four state files
      and no report; any other file is left as it was. */
  lemma StateFilesContents(dir: map<string, string>, st: State, dumps: Json -> string)
    ensures ReportFile !in StateFiles(dir, st, dumps)
    ensures StateFiles(dir, st, dumps).Keys ==
      (dir.Keys - {ReportFile}) + {DeviceInventoryFile, ApInventoryFile, SiteHierarchyFile, NetworkSettingsFile}
    ensures forall f :: f in dir && f != ReportFile && f !in {DeviceInventoryFile, ApInventoryFile, SiteHierarchyFile, NetworkSettingsFile} ==>
      StateFiles(dir, st, dumps)[f] == dir[f]
  {
  }

  /** The controller's answers and what the collection phase makes of them:
      the device pages read and parsed in order, the inventories split from
      them, the site list sorted by name and one settings entry per sorted
      site, index for index. */
  ghost predicate Collected(cat: Catalyst, st: State)
  {
    && DeviceCount(cat.deviceCount).Some?
    && Pages(cat.devicePage, Offsets(DeviceCount(cat.deviceCount).value)).Success?
    && MapResult(ParseDevice, Pages(cat.devicePage, Offsets(DeviceCount(cat.deviceCount).value)).value) == Success(st.devices)
    && Located(cat, st.devices, |st.devices|)
    && st.inventory.devices == Select(cat, st.devices, false, |st.devices|)
    && st.inventory.aps == Select(cat, st.devices, true, |st.devices|)
    && Lookup(cat.siteCount, "response").Some?
    && GlobalSiteId(cat.globalSite).Some?
    && SiteList(cat.sites).Success?
    && st.sites == Sort(SiteList(cat.sites).value)
    && |st.settings| == |st.sites|
    && forall i :: 0 <= i < |st.sites| ==>
         && Lookup(cat.networkSettings(st.sites[i].id), "response").Some?
         && st.settings[i] == SettingsRecord(st.sites[i].name, Lookup(cat.networkSettings(st.sites[i].id), "response").value)
  }

  /** Every response the collection phase reads has the shape it indexes
      into: nothing raises before the push phase. */
  ghost predicate Collectable(cat: Catalyst)
  {
    && DeviceCount(cat.deviceCount).Some?
    && var pages := Pages(cat.devicePage, Offsets(DeviceCount(cat.deviceCount).value));
    && pages.Success?
    && MapResult(ParseDevice, pages.value).Success?
    && Located(cat, MapResult(ParseDevice, pages.value).value, |MapResult(ParseDevice, pages.value).value|)
    && Lookup(cat.siteCount, "response").Some?
    && GlobalSiteId(cat.globalSite).Some?
    && SiteList(cat.sites).Success?
    && var sorted := Sort(SiteList(cat.sites).value);
    && forall i :: 0 <= i < |sorted| ==> Lookup(cat.networkSettings(sorted[i].id), "response").Some?
  }

  /** The snapshot's site list is the controller's site list sorted by name:
      ascending, a permutation, and sites with equal names in response
      order. */
  lemma CollectedSitesSorted(cat: Catalyst, st: State)
    requires Collected(cat, st)
    ensures Sorted(st.sites)
    ensures multiset(st.sites) == multiset(SiteList(cat.sites).value)
    ensures forall k :: Filter(k, st.sites) == Filter(k, SiteList(cat.sites).value)
  {
    SortIsStable(SiteList(cat.sites).value);
  }

  datatype Snapshot = Snapshot(state: State, dir: map<string, string>)

  /** The collection phase: devices, inventories, sorted sites, network
      settings, and the state directory written from them. */
  method CollectState(cat: Catalyst, dir: map<string, string>, dumps: Json -> string) returns (r: Result<Snapshot>)
    ensures r.Success? <==> Collectable(cat)
    ensures r.Success? ==> Collected(cat, r.value.state)
    ensures r.Success? ==> r.value.dir == StateFiles(dir, r.value.state, dumps)
  {
    var count := DeviceCount(cat.deviceCount);
    if count.None? {
      return Failure("KeyError or TypeError: device count");
    }
    var pages, _ := FetchDevices(count.value, cat.devicePage);
    if pages.Failure? {
      return Failure(pages.error);
    }
    var devices := MapResult(ParseDevice, pages.value);
    if devices.Failure? {
      return Failure(devices.error);
    }
    var inventory := BuildInventories(cat, devices.value);
    if inventory.Failure? {
      return Failure(inventory.error);
    }
    if Lookup(cat.siteCount, "response").None? {
      return Failure("KeyError: site count");
    }
    if GlobalSiteId(cat.globalSite).None? {
      return Failure("IndexError, KeyError or TypeError: Global site id");
    }
    var sites := SiteList(cat.sites);
    if sites.Failure? {
      return Failure(sites.error);
    }
    var sorted := Sort(sites.value);
    var settings := CollectNetworkSettings(cat.networkSettings, sorted);
    if settings.Failure? {
      return Failure(settings.error);
    }
    var st := State(devices.value, inventory.value, sorted, settings.value);
    r := Success(Snapshot(st, StateFiles(dir, st, dumps)));
  }

  // -------------------------------------------------------------------- push

  const StateCommitMessage: string := "committed by Jenkins - Network State Sync"

  /** `str(b)` of a Python bool. */
  function PythonBool(b: bool): string
  {
    if b then "True" else "False"
  }

  /** The report line of one push. */
  function PushReportLine(filename: string, update: bool): string
  {
    "    GitHub push for file: " + filename + ", file existing: " + PythonBool(update)
  }

  /** A push report line tells which file was pushed and whether it already
      existed: no two pushes share a line.  The flag is told apart by the
      next-to-last character ('u' of "True", 's' of "False"), the file name
      by the literal text around it. */
  lemma {:induction false} PushReportLineInjective(f: string, u: bool, g: string, v: bool)
    requires PushReportLine(f, u) == PushReportLine(g, v)
    ensures f == g && u == v
  {
    var a, b := "    GitHub push for file: ", ", file existing: ";
    var l1, l2 := PushReportLine(f, u), PushReportLine(g, v);
    assert l1 == a + f + b + PythonBool(u);
    assert l2 == a + g + b + PythonBool(v);
    assert l1[|l1| - 2] == PythonBool(u)[|PythonBool(u)| - 2];
    assert l2[|l2| - 2] == PythonBool(v)[|PythonBool(v)| - 2];
    assert u == v;
    var c := b + PythonBool(u);
    assert l1 == a + f + c && l2 == a + g + c;
    AffixCancel(a, f, g, c);
  }

  /** The destination repository: its files on `main`, the contents
      response for each path, the base64 decoder, and the sha the service
      gives each written file. */
  datatype Hub = Hub(
    tree: map<string, Blob>,
    fetch: string -> FileResponse,
    b64decode: string -> Option<string>,
    newSha: string -> string)

  /** `update` for a file: True when `get_repo_file_content` returns, False
      when it raises. */
  function Existing(hub: Hub, filename: string): bool
  {
    GetRepoFileContent(hub.fetch(filename), hub.b64decode).Success?
  }

  datatype PushRun = PushRun(tree: map<string, Blob>, calls: seq<PushCall>, report: seq<string>)

  /** The push loop over `files`: one create-or-update per file with its
      text from the directory, one report line per file; the first push that
      raises ends the run. */
  function PushAll(hub: Hub, dir: map<string, string>, files: seq<string>): Result<PushRun>
    requires forall i :: 0 <= i < |files| ==> files[i] in dir
    decreases |files|
  {
    if |files| == 0 then Success(PushRun(hub.tree, [], []))
    else match PushAll(hub, dir, files[..|files| - 1])
      case Failure(e) => Failure(e)
      case Success(run) =>
        var f := files[|files| - 1];
        var update := Existing(hub, f);
        match GithubPush(run.tree, f, StateCommitMessage, dir[f], update, hub.newSha(f))
        case Failure(e) => Failure(e)
        case Success(p) => Success(PushRun(p.tree, run.calls + p.calls, run.report + [PushReportLine(f, update)]))
  }

  /** One iteration of the push loop. */
  lemma PushAllStep(hub: Hub, dir: map<string, string>, files: seq<string>, i: nat, run: PushRun)
    requires forall i :: 0 <= i < |files| ==> files[i] in dir
    requires i < |files| && PushAll(hub, dir, files[..i]) == Success(run)
    ensures var f := files[i];
      PushAll(hub, dir, files[..i + 1]) ==
        match GithubPush(run.tree, f, StateCommitMessage, dir[f], Existing(hub, f), hub.newSha(f))
        case Failure(e) => Failure(e)
        case Success(p) => Success(PushRun(p.tree, run.calls + p.calls, run.report + [PushReportLine(f, Existing(hub, f))]))
  {
    assert files[..i + 1][..i] == files[..i];
  }

  lemma {:induction false} PushAllFailurePersists(hub: Hub, dir: map<string, string>, files: seq<string>, n: nat)
    requires forall i :: 0 <= i < |files| ==> files[i] in dir
    requires n <= |files|
    requires PushAll(hub, dir, files[..n]).Failure?
    ensures PushAll(hub, dir, files) == PushAll(hub, dir, files[..n])
    decreases |files|
  {
    if n < |files| {
      var init := files[..|files| - 1];
      assert init[..n] == files[..n];
      PushAllFailurePersists(hub, dir, init, n);
    } else {
      assert files[..n] == files;
    }
  }

  /** The write calls of a trace, in order. */
  function FileWrites(calls: seq<PushCall>): seq<PushCall>
    decreases |calls|
  {
    if |calls| == 0 then []
    else FileWrites(calls[..|calls| - 1]) + (if IsFileWrite(calls[|calls| - 1]) then [calls[|calls| - 1]] else [])
  }

  lemma {:induction false} FileWritesAppend(a: seq<PushCall>, b: seq<PushCall>)
    ensures FileWrites(a + b) == FileWrites(a) + FileWrites(b)
    decreases |b|
  {
    if |b| > 0 {
      assert (a + b)[..|a + b| - 1] == a + b[..|b| - 1];
      FileWritesAppend(a, b[..|b| - 1]);
    } else {
      assert a + b == a;
    }
  }

  /** The write of file i: an update exactly when the file counted as
      existing, with the directory's text and the fixed commit message. */
  predicate WritesFile(w: PushCall, hub: Hub, dir: map<string, string>, f: string)
    requires f in dir
  {
    && IsFileWrite(w) && w.path == f && w.content == dir[f] && w.message == StateCommitMessage
    && (w.UpdateFile? <==> Existing(hub, f))
  }

  /** One report line per file, in listing order, saying whether the file
      counted as existing. */
  lemma {:induction false} PushAllReport(hub: Hub, dir: map<string, string>, files: seq<string>)
    requires forall i :: 0 <= i < |files| ==> files[i] in dir
    requires PushAll(hub, dir, files).Success?
    ensures |PushAll(hub, dir, files).value.report| == |files|
    ensures forall i :: 0 <= i < |files| ==>
      PushAll(hub, dir, files).value.report[i] == PushReportLine(files[i], Existing(hub, files[i]))
    decreases |files|
  {
    if |files| > 0 {
      var init := files[..|files| - 1];
      PushAllReport(hub, dir, init);
      assert forall i :: 0 <= i < |init| ==> init[i] == files[i];
    }
  }

  /** A successful push of one file makes exactly one write, the last call. */
  lemma PushOneWrite(hub: Hub, dir: map<string, string>, tree: map<string, Blob>, f: string)
    requires f in dir
    requires GithubPush(tree, f, StateCommitMessage, dir[f], Existing(hub, f), hub.newSha(f)).Success?
    ensures var calls := GithubPush(tree, f, StateCommitMessage, dir[f], Existing(hub, f), hub.newSha(f)).value.calls;
      |calls| > 0 && FileWrites(calls) == [calls[|calls| - 1]] && WritesFile(calls[|calls| - 1], hub, dir, f)
  {
    var calls := GithubPush(tree, f, StateCommitMessage, dir[f], Existing(hub, f), hub.newSha(f)).value.calls;
    if Existing(hub, f) {
      assert calls[..1] == [calls[0]] && !IsFileWrite(calls[0]);
      assert FileWrites(calls[..1]) == FileWrites(calls[..1][..0]);
      assert calls[..1][..0] == [];
    } else {
      assert calls[..0] == [];
    }
  }

  lemma WritesSnoc(hub: Hub, dir: map<string, string>, ws: seq<PushCall>, w: PushCall, files: seq<string>)
    requires forall i :: 0 <= i < |files| ==> files[i] in dir
    requires |files| == |ws| + 1
    requires forall i :: 0 <= i < |ws| ==> WritesFile(ws[i], hub, dir, files[..|files| - 1][i])
    requires WritesFile(w, hub, dir, files[|files| - 1])
    ensures forall i :: 0 <= i < |files| ==> WritesFile((ws + [w])[i], hub, dir, files[i])
  {
    forall i | 0 <= i < |files|
      ensures WritesFile((ws + [w])[i], hub, dir, files[i])
    {
      if i < |ws| {
        assert (ws + [w])[i] == ws[i] && files[i] == files[..|files| - 1][i];
      }
    }
  }

  /** Exactly one write per file, in listing order. */
  lemma {:induction false} PushAllWrites(hub: Hub, dir: map<string, string>, files: seq<string>)
    requires forall i :: 0 <= i < |files| ==> files[i] in dir
    requires PushAll(hub, dir, files).Success?
    ensures |FileWrites(PushAll(hub, dir, files).value.calls)| == |files|
    ensures forall i :: 0 <= i < |files| ==> WritesFile(FileWrites(PushAll(hub, dir, files).value.calls)[i], hub, dir, files[i])
    decreases |files|
  {
    if |files| > 0 {
      var init := files[..|files| - 1];
      var f := files[|files| - 1];
      PushAllWrites(hub, dir, init);
      var run := PushAll(hub, dir, init).value;
      var p := GithubPush(run.tree, f, StateCommitMessage, dir[f], Existing(hub, f), hub.newSha(f)).value;
      PushOneWrite(hub, dir, run.tree, f);
      FileWritesAppend(run.calls, p.calls);
      WritesSnoc(hub, dir, FileWrites(run.calls), p.calls[|p.calls| - 1], files);
    }
  }

  /** After the loop the repository holds its old paths and the pushed ones. */
  lemma {:induction false} PushAllPaths(hub: Hub, dir: map<string, string>, files: seq<string>)
    requires forall i :: 0 <= i < |files| ==> files[i] in dir
    requires PushAll(hub, dir, files).Success?
    ensures forall path :: path in PushAll(hub, dir, files).value.tree <==> path in hub.tree || path in files
    decreases |files|
  {
    if |files| > 0 {
      var init := files[..|files| - 1];
      PushAllPaths(hub, dir, init);
      assert forall path :: path in files <==> path in init || path == files[|files| - 1];
    }
  }

  /** After the loop every pushed file holds the directory's text; every
      other file of the repository is untouched. */
  lemma {:induction false} PushAllTree(hub: Hub, dir: map<string, string>, files: seq<string>)
    requires forall i :: 0 <= i < |files| ==> files[i] in dir
    requires PushAll(hub, dir, files).Success?
    ensures forall i :: 0 <= i < |files| ==>
      files[i] in PushAll(hub, dir, files).value.tree &&
      PushAll(hub, dir, files).value.tree[files[i]] == Blob(dir[files[i]], hub.newSha(files[i]))
    ensures forall path :: path in hub.tree && path !in files ==>
      path in PushAll(hub, dir, files).value.tree && PushAll(hub, dir, files).value.tree[path] == hub.tree[path]
    decreases |files|
  {
    if |files| > 0 {
      var init := files[..|files| - 1];
      PushAllTree(hub, dir, init);
      assert forall i :: 0 <= i < |init| ==> init[i] == files[i];
      assert forall path :: path !in files ==> path !in init;
    }
  }

  /** For distinct files the loop runs to the end exactly when every file
      counts as existing precisely when the repository holds it: a fetch
      that fails for a present file makes the create raise, a fetch that
      succeeds for an absent file makes the update raise. */
  lemma {:induction false} PushAllSucceeds(hub: Hub, dir: map<string, string>, files: seq<string>)
    requires forall i :: 0 <= i < |files| ==> files[i] in dir
    requires forall i, j :: 0 <= i < j < |files| ==> files[i] != files[j]
    ensures PushAll(hub, dir, files).Success? <==> forall i :: 0 <= i < |files| ==> (Existing(hub, files[i]) <==> files[i] in hub.tree)
    decreases |files|
  {
    if |files| > 0 {
      var init := files[..|files| - 1];
      var f := files[|files| - 1];
      PushAllSucceeds(hub, dir, init);
      assert forall i :: 0 <= i < |init| ==> init[i] == files[i];
      if PushAll(hub, dir, init).Success? {
        PushAllPaths(hub, dir, init);
        assert f !in init;
        assert f in PushAll(hub, dir, init).value.tree <==> f in hub.tree;
      }
    }
  }

  /** `os.listdir()` of the state directory: every file once. */
  predicate Enumerates(listing: seq<string>, dir: map<string, string>)
  {
    && (forall i, j :: 0 <= i < j < |listing| ==> listing[i] != listing[j])
    && (forall i :: 0 <= i < |listing| ==> listing[i] in dir)
    && (forall f :: f in dir ==> f in listing)
  }

  function ReportJson(report: seq<string>): Json
  {
    Arr(seq(|report|, i requires 0 <= i < |report| => Str(report[i])))
  }

  datatype PushOutcome =
    | RepoMissing
    | PushFailed(error: string)
    | Published(run: PushRun, dir: map<string, string>)

  /** The push phase: stop if the repository is not among the owner's
      private repositories; otherwise push every listed file and then write
      the report. */
  method PushStateFiles(hub: Hub, repos: seq<string>, repo: string, dir: map<string, string>,
                        listing: seq<string>, dumps: Json -> string) returns (out: PushOutcome)
    requires Enumerates(listing, dir)
    ensures repo !in repos <==> out == RepoMissing
    ensures repo in repos ==> (out.Published? <==> PushAll(hub, dir, listing).Success?)
    ensures out.PushFailed? ==> PushAll(hub, dir, listing) == Failure(out.error)
    ensures out.Published? ==>
      && out.run == PushAll(hub, dir, listing).value
      && out.dir == dir[ReportFile := dumps(ReportJson(out.run.report))]
  {
    if repo !in repos {
      return RepoMissing;
    }
    var tree := hub.tree;
    var calls: seq<PushCall> := [];
    var report: seq<string> := [];
    var i := 0;
    while i < |listing|
      invariant 0 <= i <= |listing|
      invariant PushAll(hub, dir, listing[..i]) == Success(PushRun(tree, calls, report))
    {
      var f := listing[i];
      var update := GetRepoFileContent(hub.fetch(f), hub.b64decode).Success?;
      var pushed := GithubPush(tree, f, StateCommitMessage, dir[f], update, hub.newSha(f));
      PushAllStep(hub, dir, listing, i, PushRun(tree, calls, report));
      if pushed.Failure? {
        PushAllFailurePersists(hub, dir, listing, i + 1);
        return PushFailed(pushed.error);
      }
      tree := pushed.value.tree;
      calls := calls + pushed.value.calls;
      report := report + [PushReportLine(f, update)];
      i := i + 1;
    }
    assert listing[..i] == listing;
    out := Published(PushRun(tree, calls, report), dir[ReportFile := dumps(ReportJson(report))]);
  }

  /** The report is deleted before the collection phase and written only
      after the push loop, so no push ever writes it. */
  lemma ReportNeverPushed(hub: Hub, dir: map<string, string>, st: State, dumps: Json -> string, listing: seq<string>)
    requires Enumerates(listing, StateFiles(dir, st, dumps))
    requires PushAll(hub, StateFiles(dir, st, dumps), listing).Success?
    ensures forall w :: w in FileWrites(PushAll(hub, StateFiles(dir, st, dumps), listing).value.calls) ==> w.path != ReportFile
  {
    var files := StateFiles(dir, st, dumps);
    StateFilesContents(dir, st, dumps);
    PushAllWrites(hub, files, listing);
    var ws := FileWrites(PushAll(hub, files, listing).value.calls);
    forall w | w in ws
      ensures w.path != ReportFile
    {
      var i :| 0 <= i < |ws| && ws[i] == w;
      assert WritesFile(ws[i], hub, files, listing[i]);
    }
  }

  // -------------------------------------------------------------- the run

  /** The four state files hold what was collected, dumped as JSON, each
      with the sha the repository gave it. */
  predicate StatePublished(tree: map<string, Blob>, st: State, dumps: Json -> string, newSha: string -> string)
  {
    && DeviceInventoryFile in tree
    && tree[DeviceInventoryFile] == Blob(dumps(Arr(Objects(st.inventory.devices))), newSha(DeviceInventoryFile))
    && ApInventoryFile in tree
    && tree[ApInventoryFile] == Blob(dumps(Arr(Objects(st.inventory.aps))), newSha(ApInventoryFile))
    && SiteHierarchyFile in tree
    && tree[SiteHierarchyFile] == Blob(dumps(Arr(SiteRecords(st.sites))), newSha(SiteHierarchyFile))
    && NetworkSettingsFile in tree
    && tree[NetworkSettingsFile] == Blob(dumps(Arr(st.settings)), newSha(NetworkSettingsFile))
  }

  datatype StateSyncOutcome =
    | CollectionFailed(error: string)
    | Ran(snapshot: Snapshot, push: PushOutcome)

  /** A listed file of the pushed directory holds its directory text. */
  lemma PushedFileHolds(hub: Hub, files: map<string, string>, listing: seq<string>, f: string)
    requires Enumerates(listing, files) && f in files
    requires PushAll(hub, files, listing).Success?
    ensures f in PushAll(hub, files, listing).value.tree
    ensures PushAll(hub, files, listing).value.tree[f] == Blob(files[f], hub.newSha(f))
  {
    PushAllTree(hub, files, listing);
    var i :| 0 <= i < |listing| && listing[i] == f;
  }

  /** A complete push of a collected directory publishes the state files
      and leaves `report.json` alone. */
  lemma PushedState(hub: Hub, dir: map<string, string>, st: State, dumps: Json -> string, listing: seq<string>)
    requires Enumerates(listing, StateFiles(dir, st, dumps))
    requires PushAll(hub, StateFiles(dir, st, dumps), listing).Success?
    ensures StatePublished(PushAll(hub, StateFiles(dir, st, dumps), listing).value.tree, st, dumps, hub.newSha)
    ensures forall w :: w in FileWrites(PushAll(hub, StateFiles(dir, st, dumps), listing).value.calls) ==> w.path != ReportFile
  {
    var files := StateFiles(dir, st, dumps);
    ReportNeverPushed(hub, dir, st, dumps, listing);
    PushedFileHolds(hub, files, listing, DeviceInventoryFile);
    PushedFileHolds(hub, files, listing, ApInventoryFile);
    PushedFileHolds(hub, files, listing, SiteHierarchyFile);
    PushedFileHolds(hub, files, listing, NetworkSettingsFile);
  }

  /** `os.listdir` of the state directory after the collection phase: each
      file once, `report.json` gone, the four state files present. */
  predicate ListsStateDirectory(listing: seq<string>, dir: map<string, string>)
  {
    && (forall i, j :: 0 <= i < j < |listing| ==> listing[i] != listing[j])
    && (forall i :: 0 <= i < |listing| ==> (listing[i] in dir && listing[i] != ReportFile) || listing[i] in StateFileNames)
    && (forall f :: f in dir && f != ReportFile ==> f in listing)
    && (forall f :: f in StateFileNames ==> f in listing)
  }

  const StateFileNames: set<string> := {DeviceInventoryFile, ApInventoryFile, SiteHierarchyFile, NetworkSettingsFile}

  /** The whole script: collect the state and write the state directory,
      then, when the destination repository is one of the owner's private
      repositories, push every file `listing` names and write the report.
      A complete run leaves the four state files in the repository with
      the collected content and never pushes `report.json`. */
  method SyncNetworkState(cat: Catalyst, dir: map<string, string>, dumps: Json -> string,
                          hub: Hub, repos: seq<string>, repo: string, listing: seq<string>) returns (out: StateSyncOutcome)
    requires ListsStateDirectory(listing, dir)
    ensures out.CollectionFailed? <==> !Collectable(cat)
    ensures out.Ran? ==>
      && Collected(cat, out.snapshot.state)
      && out.snapshot.dir == StateFiles(dir, out.snapshot.state, dumps)
      && Enumerates(listing, out.snapshot.dir)
      && (out.push == RepoMissing <==> repo !in repos)
    ensures out.Ran? && repo in repos ==>
      (out.push.Published? <==> PushAll(hub, out.snapshot.dir, listing).Success?)
    ensures out.Ran? && out.push.Published? ==>
      && out.push.run == PushAll(hub, out.snapshot.dir, listing).value
      && StatePublished(out.push.run.tree, out.snapshot.state, dumps, hub.newSha)
      && (forall w :: w in FileWrites(out.push.run.calls) ==> w.path != ReportFile)
      && out.push.dir == out.snapshot.dir[ReportFile := dumps(ReportJson(out.push.run.report))]
  {
    var snap := CollectState(cat, dir, dumps);
    if snap.Failure? {
      return CollectionFailed(snap.error);
    }
    StateFilesContents(dir, snap.value.state, dumps);
    var push := PushStateFiles(hub, repos, repo, snap.value.dir, listing, dumps);
    if push.Published? {
      PushedState(hub, dir, snap.value.state, dumps, listing);
    }
    out := Ran(snap.value, push);
  }
}

=== FILE: site_sort.dfy ===
/**
 * The ordering of the site hierarchy snapshot: Python's `<` on `str` and
 * `sorted(..., key=lambda x: x['site_name_hierarchy'])`, a stable sort on
 * the site name.  The sort is modelled as a stable insertion sort; the
 * lemmas show it is sorted, a permutation and stable, and that these three
 * properties determine the result, so every stable sort (Python's included)
 * returns the same list.
 */
module SiteSort {
  import opened Json

  // ------------------------------------------------------- string order

  /** Python's `a < b` on strings: code point by code point, a proper prefix
      comes first. */
  predicate Less(a: string, b: string)
    decreases |a|
  {
    if |a| == 0 then |b| > 0
    else if |b| == 0 then false
    else if a[0] == b[0] then Less(a[1..], b[1..])
    else a[0] < b[0]
  }

  lemma {:induction false} LessIrreflexive(a: string)
    ensures !Less(a, a)
    decreases |a|
  {
    if |a| > 0 {
      LessIrreflexive(a[1..]);
    }
  }

  lemma {:induction false} LessTransitive(a: string, b: string, c: string)
    requires Less(a, b) && Less(b, c)
    ensures Less(a, c)
    decreases |a|
  {
    if |a| > 0 && a[0] == b[0] && b[0] == c[0] {
      LessTransitive(a[1..], b[1..], c[1..]);
    }
  }

  /** Any two distinct strings are ordered one way or the other. */
  lemma {:induction false} LessTotal(a: string, b: string)
    ensures a == b || Less(a, b) || Less(b, a)
    decreases |a|
  {
    if |a| > 0 && |b| > 0 && a[0] == b[0] {
      LessTotal(a[1..], b[1..]);
      if a[1..] == b[1..] {
        assert a == [a[0]] + a[1..] && b == [b[0]] + b[1..];
      }
    }
  }

  lemma LessAsymmetric(a: string, b: string)
    requires Less(a, b)
    ensures !Less(b, a)
  {
    if Less(b, a) {
      LessTransitive(a, b, a);
      LessIrreflexive(a);
    }
  }

  /** "Not greater than" is transitive too. */
  lemma NotLessTransitive(a: string, b: string, c: string)
    requires !Less(b, a) && !Less(c, b)
    ensures !Less(c, a)
  {
    LessTotal(a, b);
    if Less(c, a) && a != b {
      LessTransitive(c, a, b);
    }
  }

  // ------------------------------------------------------------- sites

  /** One entry of the site list: `{'site_name_hierarchy': name, 'site_id': id}`. */
  datatype Site = Site(name: string, id: Json)

  /** Ascending by name, equal names in any order. */
  ghost predicate Sorted(s: seq<Site>)
  {
    forall i, j :: 0 <= i < j < |s| ==> !Less(s[j].name, s[i].name)
  }

  /** The sites named `k`, in list order. */
  function Filter(k: string, s: seq<Site>): (r: seq<Site>)
    ensures |r| <= |s|
  {
    if |s| == 0 then [] else (if s[0].name == k then [s[0]] else []) + Filter(k, s[1..])
  }

  /** `x` goes in front of the first site whose name is not smaller. */
  function Insert(x: Site, s: seq<Site>): (r: seq<Site>)
    ensures |r| == |s| + 1
  {
    if |s| == 0 then [x]
    else if Less(s[0].name, x.name) then [s[0]] + Insert(x, s[1..])
    else [x] + s
  }

  /** The stable sort by name: a site is inserted into the sorted rest of the
      list before every site with an equal name, so equal names keep their
      input order. */
  function Sort(s: seq<Site>): (r: seq<Site>)
    ensures |r| == |s|
  {
    if |s| == 0 then [] else Insert(s[0], Sort(s[1..]))
  }

  lemma {:induction false} InsertMultiset(x: Site, s: seq<Site>)
    ensures multiset(Insert(x, s)) == multiset(s) + multiset{x}
    decreases |s|
  {
    if |s| > 0 {
      assert s == [s[0]] + s[1..];
      if Less(s[0].name, x.name) {
        InsertMultiset(x, s[1..]);
      }
    }
  }

  lemma {:induction false} SortMultiset(s: seq<Site>)
    ensures multiset(Sort(s)) == multiset(s)
    decreases |s|
  {
    if |s| > 0 {
      SortMultiset(s[1..]);
      InsertMultiset(s[0], Sort(s[1..]));
      assert s == [s[0]] + s[1..];
    }
  }

  lemma {:induction false} InsertSorted(x: Site, s: seq<Site>)
    requires Sorted(s)
    ensures Sorted(Insert(x, s))
    decreases |s|
  {
    if |s| == 0 {
    } else if Less(s[0].name, x.name) {
      var rest := Insert(x, s[1..]);
      InsertSorted(x, s[1..]);
      InsertMultiset(x, s[1..]);
      LessAsymmetric(s[0].name, x.name);
      forall j | 0 <= j < |rest|
        ensures !Less(rest[j].name, s[0].name)
      {
        assert rest[j] in multiset(rest);
        if rest[j] != x {
          assert rest[j] in multiset(s[1..]);
          var m :| 0 <= m < |s[1..]| && s[1..][m] == rest[j];
          assert s[m + 1] == rest[j];
        }
      }
      var r := [s[0]] + rest;
      forall i, j | 0 <= i < j < |r|
        ensures !Less(r[j].name, r[i].name)
      {
        if i > 0 {
          assert r[i] == rest[i - 1] && r[j] == rest[j - 1];
        } else {
          assert r[j] == rest[j - 1];
        }
      }
    } else {
      var r := [x] + s;
      forall i, j | 0 <= i < j < |r|
        ensures !Less(r[j].name, r[i].name)
      {
        if i == 0 {
          assert r[j] == s[j - 1];
          if j > 1 {
            NotLessTransitive(x.name, s[0].name, s[j - 1].name);
          }
        } else {
          assert r[i] == s[i - 1] && r[j] == s[j - 1];
        }
      }
    }
  }

  lemma {:induction false} SortSorted(s: seq<Site>)
    ensures Sorted(Sort(s))
    decreases |s|
  {
    if |s| > 0 {
      SortSorted(s[1..]);
      InsertSorted(s[0], Sort(s[1..]));
    }
  }

  /** Inserting `x` puts it before every site with its name: per name, the
      insertion behaves like prepending. */
  lemma {:induction false} InsertFilter(k: string, x: Site, s: seq<Site>)
    ensures Filter(k, Insert(x, s)) == Filter(k, [x] + s)
    decreases |s|
  {
    assert ([x] + s)[1..] == s;
    if |s| > 0 && Less(s[0].name, x.name) {
      var rest := Insert(x, s[1..]);
      assert ([s[0]] + rest)[1..] == rest;
      InsertFilter(k, x, s[1..]);
      assert ([x] + s[1..])[1..] == s[1..];
      if x.name == k {
        LessIrreflexive(k);
      }
    }
  }

  lemma {:induction false} SortFilter(k: string, s: seq<Site>)
    ensures Filter(k, Sort(s)) == Filter(k, s)
    decreases |s|
  {
    if |s| > 0 {
      SortFilter(k, s[1..]);
      InsertFilter(k, s[0], Sort(s[1..]));
      assert ([s[0]] + Sort(s[1..]))[1..] == Sort(s[1..]);
    }
  }

  /** `Sort` is a stable sort: ordered by name, a permutation of its input,
      and every name's sites in input order. */
  lemma SortIsStable(s: seq<Site>)
    ensures Sorted(Sort(s))
    ensures multiset(Sort(s)) == multiset(s)
    ensures forall k :: Filter(k, Sort(s)) == Filter(k, s)
  {
    SortSorted(s);
    SortMultiset(s);
    forall k
      ensures Filter(k, Sort(s)) == Filter(k, s)
    {
      SortFilter(k, s);
    }
  }

  lemma {:induction false} FilterWitness(k: string, s: seq<Site>)
    requires |Filter(k, s)| > 0
    ensures exists j :: 0 <= j < |s| && s[j].name == k
    decreases |s|
  {
    if s[0].name != k {
      FilterWitness(k, s[1..]);
      var j :| 0 <= j < |s[1..]| && s[1..][j].name == k;
      assert s[j + 1].name == k;
    }
  }

  lemma FilterTail(k: string, r1: seq<Site>, r2: seq<Site>)
    requires |r1| > 0 && |r2| > 0 && r1[0] == r2[0]
    requires Filter(k, r1) == Filter(k, r2)
    ensures Filter(k, r1[1..]) == Filter(k, r2[1..])
  {
    if r1[0].name == k {
      assert Filter(k, r1[1..]) == Filter(k, r1)[1..];
      assert Filter(k, r2[1..]) == Filter(k, r2)[1..];
    }
  }

  lemma SortedTail(r: seq<Site>)
    requires |r| > 0 && Sorted(r)
    ensures Sorted(r[1..])
  {
    forall i, j | 0 <= i < j < |r[1..]|
      ensures !Less(r[1..][j].name, r[1..][i].name)
    {
      assert r[1..][i] == r[i + 1] && r[1..][j] == r[j + 1];
    }
  }

  /** Two sorted lists with the same sites per name, in the same order, are
      equal. */
  lemma {:induction false} SortedFiltersDetermine(r1: seq<Site>, r2: seq<Site>)
    requires Sorted(r1) && Sorted(r2)
    requires forall k :: Filter(k, r1) == Filter(k, r2)
    ensures r1 == r2
    decreases |r1|
  {
    if |r1| == 0 || |r2| == 0 {
      var s := if |r1| > 0 then r1 else r2;
      if |s| > 0 {
        assert Filter(s[0].name, r1) != Filter(s[0].name, r2);
      }
    } else {
      var k1, k2 := r1[0].name, r2[0].name;
      assert Filter(k1, r1) != [];
      FilterWitness(k1, r2);
      var j2 :| 0 <= j2 < |r2| && r2[j2].name == k1;
      assert j2 > 0 ==> !Less(r2[j2].name, r2[0].name);
      assert Filter(k2, r2) != [];
      FilterWitness(k2, r1);
      var j1 :| 0 <= j1 < |r1| && r1[j1].name == k2;
      assert j1 > 0 ==> !Less(r1[j1].name, r1[0].name);
      LessTotal(k1, k2);
      assert k1 == k2;
      assert Filter(k1, r1)[0] == r1[0];
      assert Filter(k1, r2)[0] == r2[0];
      forall k
        ensures Filter(k, r1[1..]) == Filter(k, r2[1..])
      {
        FilterTail(k, r1, r2);
      }
      SortedTail(r1);
      SortedTail(r2);
      SortedFiltersDetermine(r1[1..], r2[1..]);
      assert r1 == [r1[0]] + r1[1..] && r2 == [r2[0]] + r2[1..];
    }
  }

  /** Any sorted list holding, per name, the input's sites in input order is
      `Sort` of the input: a stable sort has exactly one possible result. */
  lemma StableSortUnique(s: seq<Site>, r: seq<Site>)
    requires Sorted(r)
    requires forall k :: Filter(k, r) == Filter(k, s)
    ensures r == Sort(s)
  {
    SortIsStable(s);
    SortedFiltersDetermine(r, Sort(s));
  }
}

=== FILE: template_sync.dfy ===
/**
 * The decision logic of the template sync workflow: compose the annotated
 * template text for every file of the source repository and reconcile it
 * with the templates of one controller project.  The controller is the
 * project's template listing plus the version snapshots it keeps; every
 * write request the workflow makes (project, template, commit, local file)
 * is returned as a call trace, while the read requests are inputs.
 */
module TemplateSync {
  import opened Wrappers
  import opened GithubApis
  import opened Text

  type TemplateId = nat

  const Header: string :=
    "{#\nThis template has been pulled from GitHub.\nUploaded to Catalyst Center by GitHub_Sync App\n"
  const Terminator: string := "#}\n!\n"
  const TemplatesDir: string := "templates/"
  const CommitComment: string := "Jenkins automation committed"

  /** The fixed arguments of `create_template` / `update_template`. */
  datatype TemplateAttrs = TemplateAttrs(
    language: string, deviceTypes: seq<string>, softwareType: string, author: string, description: string)

  const CreateAttrs: TemplateAttrs :=
    TemplateAttrs("JINJA", ["Routers", "Switches and Hubs"], "IOS-XE", "Jenkins automation",
                  "Created by Python automation")
  const UpdateAttrs: TemplateAttrs := CreateAttrs.(description := "Updated by Python automation")

  datatype Template = Template(id: TemplateId, name: string, content: string)

  /** The controller as this workflow sees it: the project (its id when it
      exists), the project's templates in listing order, the next id the
      controller hands out, and the content of the last committed version of
      each template. */
  datatype Controller = Controller(
    project: Option<nat>, templates: seq<Template>, nextId: nat, committed: map<TemplateId, string>)

  datatype Call =
    | CreateProject(name: string)
    | CreateTemplate(projectId: nat, name: string, content: string, attrs: TemplateAttrs)
    | UpdateTemplate(projectId: nat, id: TemplateId, name: string, content: string, attrs: TemplateAttrs)
    | CommitTemplate(id: TemplateId, comments: string)
    | WriteLocal(path: string, content: string)

  datatype RepoFile = RepoFile(name: string, body: string)

  // ------------------------------------------------------ report lines

  function ProjectCreatedLine(project: string): string
  {
    "Project \"" + project + "\" not found, created\n"
  }

  /** The project line names the project it created. */
  lemma ProjectCreatedLineInjective(p: string, q: string)
    requires ProjectCreatedLine(p) == ProjectCreatedLine(q)
    ensures p == q
  {
    AffixCancel("Project \"", p, q, "\" not found, created\n");
  }

  /** What the workflow reports for one file; `Skipped` (the template exists
      but its details came back empty) adds no line to the report. */
  datatype Verdict = Created(name: string) | Unchanged(name: string) | Updated(name: string) | Skipped(name: string)

  function ReportLine(v: Verdict): (r: string)
    ensures r == "" <==> v.Skipped?
  {
    match v
    case Created(name) => "New template \"" + name + "\" created and committed\n"
    case Unchanged(name) => "Template \"" + name + "\" has not changed, identical template on Catalyst Center\n"
    case Updated(name) => "Template \"" + name + "\" has changed, updated and committed on Catalyst Center\n"
    case Skipped(_) => ""
  }

  /** A report line tells the verdict and the template it is about: the
      created line starts "New", and the unchanged and updated lines part
      just before their common tail " on Catalyst Center" ("template" against
      "committed"); the name sits between the same literal texts. */
  lemma {:induction false} ReportLineInjective(v: Verdict, w: Verdict)
    requires !v.Skipped? && !w.Skipped? && ReportLine(v) == ReportLine(w)
    ensures v == w
  {
    var r := ReportLine(v);
    match v
    case Created(n) =>
      assert r[0] == 'N';
      var m := w.name;
      assert w.Created?;
      AffixCancel("New template \"", n, m, "\" created and committed\n");
    case Unchanged(n) =>
      assert r[0] == 'T' && r[|r| - 21] == 'e';
      var m := w.name;
      assert w.Unchanged?;
      AffixCancel("Template \"", n, m, "\" has not changed, identical template on Catalyst Center\n");
    case Updated(n) =>
      assert r[0] == 'T' && r[|r| - 21] == 'd';
      var m := w.name;
      assert w.Updated?;
      AffixCancel("Template \"", n, m, "\" has changed, updated and committed on Catalyst Center\n");
  }

  /** The per-file report lines, concatenated in file order. */
  function Report(vs: seq<Verdict>): string
  {
    if |vs| == 0 then "" else Report(vs[..|vs| - 1]) + ReportLine(vs[|vs| - 1])
  }

  // ------------------------------------------------ annotated content

  /** Index of the first commit (in list order) whose first changed file is
      `file`: the commits are listed most recent first, so this is the most
      recent commit touching the file. */
  function FirstCommitIndex(comments: seq<CommitInfo>, file: string): (r: Option<nat>)
    ensures r.Some? ==> r.value < |comments| && comments[r.value].filename == file
    ensures r.Some? ==> forall j :: 0 <= j < r.value ==> comments[j].filename != file
    ensures r.None? ==> forall j :: 0 <= j < |comments| ==> comments[j].filename != file
  {
    if |comments| == 0 then None
    else if comments[0].filename == file then Some(0)
    else match FirstCommitIndex(comments[1..], file)
      case None => None
      case Some(i) => Some(i + 1)
  }

  function MetadataBlock(c: CommitInfo): string
  {
    "Author: " + c.author + "\n" + "Date: " + c.date + "\n" + "Commit message: " + c.message + "\n" +
    "Commit URL: " + c.url + "\n" + "Commit Diff: " + c.diff + "\n"
  }

  /** The annotated template: the provenance header, the metadata of the
      first matching commit (nothing when no commit matches), the comment
      terminator, then the raw file body. */
  function ComposeTemplate(comments: seq<CommitInfo>, file: string, body: string): string
  {
    var block := match FirstCommitIndex(comments, file)
      case None => ""
      case Some(i) => MetadataBlock(comments[i]);
    Header + block + Terminator + body
  }

  /** The metadata block is that of the FIRST commit in list order whose
      file name equals the file; it is absent when no commit matches. */
  lemma ComposedMetadata(comments: seq<CommitInfo>, file: string, body: string)
    ensures (forall j :: 0 <= j < |comments| ==> comments[j].filename != file) ==>
      ComposeTemplate(comments, file, body) == Header + Terminator + body
    ensures forall i ::
      (0 <= i < |comments| && comments[i].filename == file &&
       (forall j :: 0 <= j < i ==> comments[j].filename != file)) ==>
      ComposeTemplate(comments, file, body) == Header + MetadataBlock(comments[i]) + Terminator + body
  {
    if FirstCommitIndex(comments, file).None? {
      assert Header + "" == Header;
    }
  }

  /** The annotated template starts with the provenance header and ends with
      the comment terminator followed by the raw body. */
  lemma ComposedLayout(comments: seq<CommitInfo>, file: string, body: string)
    ensures var r := ComposeTemplate(comments, file, body);
      && |r| >= |Header| + |Terminator| + |body|
      && r[..|Header|] == Header
      && r[|r| - |body|..] == body
      && r[|r| - |body| - |Terminator|..|r| - |body|] == Terminator
  {
    var block := match FirstCommitIndex(comments, file)
      case None => ""
      case Some(i) => MetadataBlock(comments[i]);
    var r := Header + block + Terminator + body;
    assert r == (Header + block) + Terminator + body;
  }

  /** Change detection sees every change of the file body: with the same
      commit metadata, equal annotated contents mean equal bodies. */
  lemma ComposeInjective(comments: seq<CommitInfo>, file: string, body1: string, body2: string)
    requires ComposeTemplate(comments, file, body1) == ComposeTemplate(comments, file, body2)
    ensures body1 == body2
  {
    var block := match FirstCommitIndex(comments, file)
      case None => ""
      case Some(i) => MetadataBlock(comments[i]);
    var p := Header + block + Terminator;
    assert ComposeTemplate(comments, file, body1) == p + body1;
    assert ComposeTemplate(comments, file, body2) == p + body2;
    assert body1 == (p + body1)[|p|..];
    assert body2 == (p + body2)[|p|..];
  }

  /** `file.split('.')[0]`: the file name up to its first '.'. */
  function TemplateName(file: string): string
  {
    if |file| == 0 || file[0] == '.' then ""
    else [file[0]] + TemplateName(file[1..])
  }

  /** The template name is the longest dot-free prefix of the file name. */
  lemma {:induction false} TemplateNameShape(file: string)
    ensures var r := TemplateName(file);
      && |r| <= |file| && r == file[..|r|]
      && '.' !in r
      && (|r| < |file| ==> file[|r|] == '.')
      && ('.' !in file ==> r == file)
  {
    if |file| > 0 && file[0] != '.' {
      TemplateNameShape(file[1..]);
    }
  }

  // ------------------------------------------------- template listing

  /** Index of the LAST template of the listing named `name`: the lookup loop
      has no `break`, so a later match overwrites an earlier one. */
  function LastTemplateIndex(ts: seq<Template>, name: string): (r: Option<nat>)
    ensures r.Some? ==> r.value < |ts| && ts[r.value].name == name
    ensures r.Some? ==> forall j :: r.value < j < |ts| ==> ts[j].name != name
    ensures r.None? ==> forall j :: 0 <= j < |ts| ==> ts[j].name != name
  {
    if |ts| == 0 then None
    else if ts[|ts| - 1].name == name then Some(|ts| - 1)
    else LastTemplateIndex(ts[..|ts| - 1], name)
  }

  /** The template id the workflow resolves for `name`, None iff no template
      of the listing has that name. */
  function LookupTemplateId(ts: seq<Template>, name: string): Option<TemplateId>
  {
    match LastTemplateIndex(ts, name)
    case None => None
    case Some(i) => Some(ts[i].id)
  }

  /** The id resolved is that of the last template so named, and there is
      none exactly when no template has the name. */
  lemma LookupTemplateIdSpec(ts: seq<Template>, name: string)
    ensures var r := LookupTemplateId(ts, name);
      && (r.None? <==> forall j :: 0 <= j < |ts| ==> ts[j].name != name)
      && (r.Some? ==> exists i ::
            && 0 <= i < |ts| && ts[i].name == name && ts[i].id == r.value
            && forall j :: i < j < |ts| ==> ts[j].name != name)
  {
  }

  /** The content the controller stores under `name` (last template so named). */
  function StoredContent(ts: seq<Template>, name: string): Option<string>
  {
    match LastTemplateIndex(ts, name)
    case None => None
    case Some(i) => Some(ts[i].content)
  }

  /** The `templateContent` of every template named `name`, in listing order:
      the details response of a controller that is up to date. */
  function TemplateDetails(ts: seq<Template>, name: string): seq<string>
  {
    if |ts| == 0 then []
    else TemplateDetails(ts[..|ts| - 1], name) + (if ts[|ts| - 1].name == name then [ts[|ts| - 1].content] else [])
  }

  /** Content of the template with id `id` (the last one, ids being unique). */
  function ContentById(ts: seq<Template>, id: TemplateId): Option<string>
  {
    if |ts| == 0 then None
    else if ts[|ts| - 1].id == id then Some(ts[|ts| - 1].content)
    else ContentById(ts[..|ts| - 1], id)
  }

  /** Names and ids are unique in the project, and ids already handed out are
      below `nextId`. */
  ghost predicate WellFormed(ctl: Controller)
  {
    && (forall i, j :: 0 <= i < j < |ctl.templates| ==>
          ctl.templates[i].name != ctl.templates[j].name && ctl.templates[i].id != ctl.templates[j].id)
    && (forall i :: 0 <= i < |ctl.templates| ==> ctl.templates[i].id < ctl.nextId)
  }

  // --------------------------------------------------- controller calls

  function CreateOp(ctl: Controller, name: string, content: string): Controller
  {
    ctl.(templates := ctl.templates + [Template(ctl.nextId, name, content)], nextId := ctl.nextId + 1)
  }

  function SetContent(ts: seq<Template>, id: TemplateId, content: string): (r: seq<Template>)
    ensures |r| == |ts|
    ensures forall i :: 0 <= i < |ts| ==> r[i].id == ts[i].id && r[i].name == ts[i].name
  {
    seq(|ts|, i requires 0 <= i < |ts| => if ts[i].id == id then ts[i].(content := content) else ts[i])
  }

  function UpdateOp(ctl: Controller, id: TemplateId, content: string): Controller
  {
    ctl.(templates := SetContent(ctl.templates, id, content))
  }

  /** `version_template`: snapshot the current content of template `id`. */
  function CommitOp(ctl: Controller, id: TemplateId): Controller
  {
    match ContentById(ctl.templates, id)
    case None => ctl
    case Some(c) => ctl.(committed := ctl.committed[id := c])
  }

  // ------------------------------------------------------------ lemmas

  lemma {:induction false} LastIndexAfterAppend(ts: seq<Template>, t: Template, name: string)
    ensures LastTemplateIndex(ts + [t], name) ==
      if t.name == name then Some(|ts|) else LastTemplateIndex(ts, name)
  {
    assert (ts + [t])[..|ts|] == ts;
  }

  lemma {:induction false} LastIndexSameNames(ts: seq<Template>, us: seq<Template>, name: string)
    requires |ts| == |us|
    requires forall i :: 0 <= i < |ts| ==> ts[i].name == us[i].name
    ensures LastTemplateIndex(ts, name) == LastTemplateIndex(us, name)
  {
    if |ts| > 0 {
      LastIndexSameNames(ts[..|ts| - 1], us[..|us| - 1], name);
    }
  }

  lemma {:induction false} ContentByIdAfterSet(ts: seq<Template>, id: TemplateId, content: string)
    requires exists i :: 0 <= i < |ts| && ts[i].id == id
    ensures ContentById(SetContent(ts, id, content), id) == Some(content)
  {
    var us := SetContent(ts, id, content);
    if ts[|ts| - 1].id != id {
      var i :| 0 <= i < |ts| && ts[i].id == id;
      assert i < |ts| - 1;
      assert SetContent(ts[..|ts| - 1], id, content) == us[..|us| - 1];
      ContentByIdAfterSet(ts[..|ts| - 1], id, content);
    }
  }

  lemma {:induction false} ContentByIdAfterAppend(ts: seq<Template>, t: Template)
    ensures ContentById(ts + [t], t.id) == Some(t.content)
  {
  }

  /** With unique names, the details response is the single stored content. */
  lemma {:induction false} DetailsOfUniqueNames(ts: seq<Template>, name: string)
    requires forall i, j :: 0 <= i < j < |ts| ==> ts[i].name != ts[j].name
    ensures TemplateDetails(ts, name) ==
      match StoredContent(ts, name) case None => [] case Some(c) => [c]
  {
    if |ts| > 0 {
      var pre := ts[..|ts| - 1];
      DetailsOfUniqueNames(pre, name);
      if ts[|ts| - 1].name == name {
        assert forall j :: 0 <= j < |pre| ==> pre[j].name != name;
        assert StoredContent(pre, name).None?;
      }
    }
  }

  /** The trace of a file that changes nothing on the controller. */
  lemma WriteOnlyTrace(w: Call)
    requires w.WriteLocal?
    ensures Writes([w]) == [w]
    ensures CommitsFollowWrites([w]) && CreatesNoProject([w])
  {
    assert [w][..0] == [];
  }

  /** The trace of a file whose template is created or updated: the write
      request, its commit, then the local write. */
  lemma WriteCommitTrace(t: Call, c: Call, w: Call)
    requires IsTemplateWrite(t) && c.CommitTemplate? && w.WriteLocal?
    requires t.UpdateTemplate? ==> c == CommitTemplate(t.id, CommitComment)
    ensures Writes([t, c, w]) == [w]
    ensures CommitsFollowWrites([t, c, w]) && CreatesNoProject([t, c, w])
  {
    var calls := [t, c, w];
    assert calls[..2] == [t, c];
    assert [t, c][..1] == [t];
    assert [t][..0] == [];
    assert Writes([t]) == [];
    assert Writes([t, c]) == [];
  }

  /** Creating a template for an absent name: the refreshed listing resolves
      the name to the fresh id, the new content is stored under it, and no
      other name changes. */
  lemma CreateFacts(ctl: Controller, name: string, content: string)
    requires LookupTemplateId(ctl.templates, name).None?
    ensures var created := CreateOp(ctl, name, content);
      && LookupTemplateId(created.templates, name) == Some(ctl.nextId)
      && StoredContent(created.templates, name) == Some(content)
      && ContentById(created.templates, ctl.nextId) == Some(content)
      && (forall n :: n != name ==> StoredContent(created.templates, n) == StoredContent(ctl.templates, n))
      && (WellFormed(ctl) ==> WellFormed(created))
  {
    var t := Template(ctl.nextId, name, content);
    var created := CreateOp(ctl, name, content);
    LastIndexAfterAppend(ctl.templates, t, name);
    ContentByIdAfterAppend(ctl.templates, t);
    forall n | n != name
      ensures StoredContent(created.templates, n) == StoredContent(ctl.templates, n)
    {
      LastIndexAfterAppend(ctl.templates, t, n);
    }
  }

  /** Updating the template the name resolves to: the new content is stored
      under the name and under the id, and (ids and names being unique) no
      other name changes. */
  lemma UpdateFacts(ctl: Controller, id: TemplateId, name: string, content: string)
    requires LookupTemplateId(ctl.templates, name) == Some(id)
    ensures var updated := UpdateOp(ctl, id, content);
      && ContentById(updated.templates, id) == Some(content)
      && (WellFormed(ctl) ==> WellFormed(updated))
      && (WellFormed(ctl) ==> StoredContent(updated.templates, name) == Some(content))
      && (WellFormed(ctl) ==> forall n :: n != name ==> StoredContent(updated.templates, n) == StoredContent(ctl.templates, n))
  {
    var i := LastTemplateIndex(ctl.templates, name).value;
    ContentByIdAfterSet(ctl.templates, id, content);
    if WellFormed(ctl) {
      UpdateKeepsWellFormed(ctl, id, content);
      UpdateStored(ctl, id, name, content, i);
    }
  }

  lemma UpdateKeepsWellFormed(ctl: Controller, id: TemplateId, content: string)
    requires WellFormed(ctl)
    ensures WellFormed(UpdateOp(ctl, id, content))
  {
  }

  lemma UpdateStored(ctl: Controller, id: TemplateId, name: string, content: string, i: nat)
    requires WellFormed(ctl)
    requires LastTemplateIndex(ctl.templates, name) == Some(i) && ctl.templates[i].id == id
    ensures var updated := UpdateOp(ctl, id, content);
      && StoredContent(updated.templates, name) == Some(content)
      && forall n :: n != name ==> StoredContent(updated.templates, n) == StoredContent(ctl.templates, n)
  {
    var updated := UpdateOp(ctl, id, content);
    LastIndexSameNames(ctl.templates, updated.templates, name);
    forall n | n != name
      ensures StoredContent(updated.templates, n) == StoredContent(ctl.templates, n)
    {
      LastIndexSameNames(ctl.templates, updated.templates, n);
    }
  }

  // ------------------------------------------------------ one file

  datatype Step = Step(ctl: Controller, calls: seq<Call>, verdict: Verdict)

  predicate IsTemplateWrite(c: Call)
  {
    c.CreateTemplate? || c.UpdateTemplate?
  }

  /** The trace splits into single calls and (create or update, commit)
      pairs: every create or update is followed at once by a commit (of the
      same id, for an update), and no commit stands alone. */
  ghost predicate CommitsFollowWrites(calls: seq<Call>)
    decreases |calls|
  {
    if |calls| == 0 then true
    else if IsTemplateWrite(calls[0]) then
      && |calls| >= 2 && calls[1].CommitTemplate?
      && (calls[0].UpdateTemplate? ==> calls[1] == CommitTemplate(calls[0].id, CommitComment))
      && CommitsFollowWrites(calls[2..])
    else !calls[0].CommitTemplate? && CommitsFollowWrites(calls[1..])
  }

  /** The same property call by call: a call is a commit exactly when the
      one before it is a create or update, an update's commit names the
      updated id, and the trace neither starts with a commit nor ends with a
      write request. */
  ghost predicate CommitsPaired(calls: seq<Call>)
  {
    && (|calls| > 0 ==> !calls[0].CommitTemplate? && !IsTemplateWrite(calls[|calls| - 1]))
    && forall i, j :: 0 <= i < j < |calls| && j == i + 1 ==>
         && (IsTemplateWrite(calls[i]) <==> calls[j].CommitTemplate?)
         && (calls[i].UpdateTemplate? ==> calls[j] == CommitTemplate(calls[i].id, CommitComment))
  }

  /** No request changes the controller: only local writes. */
  ghost predicate Quiet(calls: seq<Call>)
  {
    forall i :: 0 <= i < |calls| ==> calls[i].WriteLocal?
  }

  ghost predicate CreatesNoProject(calls: seq<Call>)
  {
    forall i :: 0 <= i < |calls| ==> !calls[i].CreateProject?
  }

  lemma CreatesNoProjectAppend(a: seq<Call>, b: seq<Call>)
    requires CreatesNoProject(a) && CreatesNoProject(b)
    ensures CreatesNoProject(a + b)
  {
  }

  /** The local writes of a trace, in order. */
  function Writes(calls: seq<Call>): seq<Call>
  {
    if |calls| == 0 then []
    else Writes(calls[..|calls| - 1]) + (if calls[|calls| - 1].WriteLocal? then [calls[|calls| - 1]] else [])
  }

  function LocalWrite(comments: seq<CommitInfo>, file: RepoFile): Call
  {
    WriteLocal(TemplatesDir + file.name, ComposeTemplate(comments, file.name, file.body))
  }

  /** The local writes the workflow owes `files`: one per file, in order. */
  function ExpectedWrites(comments: seq<CommitInfo>, files: seq<RepoFile>): (r: seq<Call>)
    ensures |r| == |files|
    ensures forall k :: 0 <= k < |files| ==> r[k] == LocalWrite(comments, files[k])
  {
    if |files| == 0 then []
    else ExpectedWrites(comments, files[..|files| - 1]) + [LocalWrite(comments, files[|files| - 1])]
  }

  /** Reconcile one repository file with the controller.  `details` is the
      `templateContent` list the details request returned for the name. */
  function SyncFile(ctl: Controller, file: RepoFile, comments: seq<CommitInfo>, details: seq<string>): (s: Step)
    requires ctl.project.Some?
    ensures s.ctl.project == ctl.project
    ensures s.verdict.name == TemplateName(file.name)
  {
    var name := TemplateName(file.name);
    var content := ComposeTemplate(comments, file.name, file.body);
    var write := LocalWrite(comments, file);
    match LookupTemplateId(ctl.templates, name)
    case None =>
      var created := CreateOp(ctl, name, content);
      CreateFacts(ctl, name, content);
      var id := LookupTemplateId(created.templates, name).value;
      Step(CommitOp(created, id), [CreateTemplate(ctl.project.value, name, content, CreateAttrs), CommitTemplate(id, CommitComment), write], Created(name))
    case Some(id) =>
      if |details| == 0 then Step(ctl, [write], Skipped(name))
      else if details[0] == content then Step(ctl, [write], Unchanged(name))
      else
        var updated := UpdateOp(ctl, id, content);
        Step(CommitOp(updated, id), [UpdateTemplate(ctl.project.value, id, name, content, UpdateAttrs), CommitTemplate(id, CommitComment), write], Updated(name))
  }

  /** The trace of one file: at most one template write, committed right
      after it, and the local write of the annotated file last. */
  lemma SyncFileTrace(ctl: Controller, file: RepoFile, comments: seq<CommitInfo>, details: seq<string>)
    requires ctl.project.Some?
    ensures var s := SyncFile(ctl, file, comments, details);
      && Writes(s.calls) == [LocalWrite(comments, file)]
      && |s.calls| > 0
      && s.calls[|s.calls| - 1] == LocalWrite(comments, file)
      && CommitsFollowWrites(s.calls)
      && CreatesNoProject(s.calls)
  {
    var name := TemplateName(file.name);
    var content := ComposeTemplate(comments, file.name, file.body);
    var write := LocalWrite(comments, file);
    match LookupTemplateId(ctl.templates, name)
    case None =>
      CreateFacts(ctl, name, content);
      var id := LookupTemplateId(CreateOp(ctl, name, content).templates, name).value;
      WriteCommitTrace(CreateTemplate(ctl.project.value, name, content, CreateAttrs), CommitTemplate(id, CommitComment), write);
    case Some(id) =>
      if |details| == 0 || details[0] == content {
        WriteOnlyTrace(write);
      } else {
        WriteCommitTrace(UpdateTemplate(ctl.project.value, id, name, content, UpdateAttrs), CommitTemplate(id, CommitComment), write);
      }
  }

  /** The four branches of one file: absent (create, re-resolve the id, commit
      it), present with empty details (nothing happens), present and identical
      (no update, no commit), present and different (update the same id, then
      commit it). */
  lemma SyncFileOutcome(ctl: Controller, file: RepoFile, comments: seq<CommitInfo>, details: seq<string>)
    requires ctl.project.Some?
    ensures var s := SyncFile(ctl, file, comments, details);
      var name := TemplateName(file.name);
      var content := ComposeTemplate(comments, file.name, file.body);
      var id := LookupTemplateId(ctl.templates, name);
      && (id.None? ==>
            && s.calls == [CreateTemplate(ctl.project.value, name, content, CreateAttrs),
                           CommitTemplate(ctl.nextId, CommitComment), LocalWrite(comments, file)]
            && s.verdict == Created(name)
            && StoredContent(s.ctl.templates, name) == Some(content)
            && s.ctl.committed == ctl.committed[ctl.nextId := content])
      && (id.Some? && |details| == 0 ==>
            s.ctl == ctl && s.calls == [LocalWrite(comments, file)] && s.verdict == Skipped(name))
      && (id.Some? && |details| > 0 && details[0] == content ==>
            s.ctl == ctl && s.calls == [LocalWrite(comments, file)] && s.verdict == Unchanged(name))
      && (id.Some? && |details| > 0 && details[0] != content ==>
            && s.calls == [UpdateTemplate(ctl.project.value, id.value, name, content, UpdateAttrs),
                           CommitTemplate(id.value, CommitComment), LocalWrite(comments, file)]
            && s.verdict == Updated(name)
            && s.ctl.committed == ctl.committed[id.value := content])
  {
    var name := TemplateName(file.name);
    var content := ComposeTemplate(comments, file.name, file.body);
    match LookupTemplateId(ctl.templates, name)
    case None =>
      CreateFacts(ctl, name, content);
    case Some(id) =>
      if |details| > 0 && details[0] != content {
        UpdateFacts(ctl, id, name, content);
      }
  }

  /** What one step leaves on a well-formed controller: still well formed,
      every other name untouched, and, when the details response reflects
      the controller, the composed content stored under the file's name. */
  lemma {:induction false} SyncFileStore(ctl: Controller, file: RepoFile, comments: seq<CommitInfo>, details: seq<string>)
    requires ctl.project.Some? && WellFormed(ctl)
    ensures var s := SyncFile(ctl, file, comments, details);
      && WellFormed(s.ctl)
      && (forall n :: n != TemplateName(file.name) ==>
            StoredContent(s.ctl.templates, n) == StoredContent(ctl.templates, n))
      && (details == TemplateDetails(ctl.templates, TemplateName(file.name)) ==>
            StoredContent(s.ctl.templates, TemplateName(file.name)) ==
            Some(ComposeTemplate(comments, file.name, file.body)))
  {
    var name := TemplateName(file.name);
    var content := ComposeTemplate(comments, file.name, file.body);
    match LookupTemplateId(ctl.templates, name)
    case None =>
      CreateFacts(ctl, name, content);
    case Some(id) =>
      UpdateFacts(ctl, id, name, content);
      if details == TemplateDetails(ctl.templates, name) {
        DetailsOfUniqueNames(ctl.templates, name);
      }
  }

  // ------------------------------------------------------- trace algebra

  lemma {:induction false} WritesAppend(a: seq<Call>, b: seq<Call>)
    ensures Writes(a + b) == Writes(a) + Writes(b)
    decreases |b|
  {
    if |b| == 0 {
      assert a + b == a;
    } else {
      var b' := b[..|b| - 1];
      assert (a + b)[..|a + b| - 1] == a + b';
      WritesAppend(a, b');
    }
  }

  lemma {:induction false} CommitsFollowWritesAppend(a: seq<Call>, b: seq<Call>)
    requires CommitsFollowWrites(a) && CommitsFollowWrites(b)
    ensures CommitsFollowWrites(a + b)
    decreases |a|
  {
    if |a| == 0 {
      assert a + b == b;
    } else if IsTemplateWrite(a[0]) {
      assert (a + b)[2..] == a[2..] + b;
      CommitsFollowWritesAppend(a[2..], b);
    } else {
      assert (a + b)[1..] == a[1..] + b;
      CommitsFollowWritesAppend(a[1..], b);
    }
  }

  /** The split into pairs and the call-by-call reading agree on every trace. */
  lemma {:induction false} CommitsFollowWritesPaired(calls: seq<Call>)
    ensures CommitsFollowWrites(calls) <==> CommitsPaired(calls)
    decreases |calls|
  {
    if |calls| > 0 {
      var k := if IsTemplateWrite(calls[0]) && |calls| >= 2 then 2 else 1;
      var rest := calls[k..];
      CommitsFollowWritesPaired(rest);
      if CommitsPaired(calls) {
        PairedSuffix(calls, k);
      }
      if CommitsFollowWrites(calls) {
        forall i, j | 0 <= i < j < |calls| && j == i + 1
          ensures && (IsTemplateWrite(calls[i]) <==> calls[j].CommitTemplate?)
                  && (calls[i].UpdateTemplate? ==> calls[j] == CommitTemplate(calls[i].id, CommitComment))
        {
          if i >= k {
            assert calls[i] == rest[i - k] && calls[j] == rest[j - k];
          } else if i == 1 {
            assert calls[j] == rest[0];
          }
        }
        if |rest| > 0 {
          assert calls[|calls| - 1] == rest[|rest| - 1];
        }
      }
    }
  }

  lemma PairedSuffix(calls: seq<Call>, k: nat)
    requires CommitsPaired(calls) && 0 < k <= 2 && k <= |calls|
    requires k == 2 ==> IsTemplateWrite(calls[0])
    requires k == 1 ==> !IsTemplateWrite(calls[0])
    ensures CommitsPaired(calls[k..])
  {
    var rest := calls[k..];
    forall i, j | 0 <= i < j < |rest| && j == i + 1
      ensures && (IsTemplateWrite(rest[i]) <==> rest[j].CommitTemplate?)
              && (rest[i].UpdateTemplate? ==> rest[j] == CommitTemplate(rest[i].id, CommitComment))
    {
      assert rest[i] == calls[i + k] && rest[j] == calls[j + k];
    }
    if |rest| > 0 {
      if k == 2 {
        assert calls[1].CommitTemplate? by {
          assert IsTemplateWrite(calls[0]);
        }
      }
      assert !IsTemplateWrite(calls[k - 1]);
      assert !calls[k].CommitTemplate?;
      assert rest[0] == calls[k];
      assert rest[|rest| - 1] == calls[|calls| - 1];
    }
  }

  // ------------------------------------------------------- the workflow

  /** What `get_templates_details(name)` returns (its `templateContent`
      list) while the project holds the given templates.  The service may
      lag behind the writes the workflow makes; `ConsistentDetails` is the
      case where it does not. */
  type DetailsView = (seq<Template>, string) -> seq<string>

  /** What the workflow reads from the source repository and the controller:
      the repository names of the owner, the files of the target repository
      with their decoded bodies, the single-commit responses in the order of
      the commit list, and the template details view. */
  datatype Source = Source(
    repos: seq<string>, files: seq<RepoFile>, commits: seq<CommitResponse>, details: DetailsView)

  datatype Outcome =
    | RepoNotFound
    | RepoEmpty
    | CommitsUnreadable(error: string)
    | Synced(ctl: Controller, calls: seq<Call>, verdicts: seq<Verdict>, report: string)

  /** Every commit of the list has a summary: `get_repo_commit_sha` raises
      for none of them. */
  predicate CommitsReadable(commits: seq<CommitResponse>)
  {
    forall i :: 0 <= i < |commits| ==> GetRepoCommitSha(commits[i]).Success?
  }

  /** The commit summaries, in commit-list order. */
  function Summaries(commits: seq<CommitResponse>): seq<CommitInfo>
    requires CommitsReadable(commits)
  {
    seq(|commits|, i requires 0 <= i < |commits| => GetRepoCommitSha(commits[i]).value)
  }

  /** The details request reports what the project currently stores. */
  ghost predicate ConsistentDetails(details: DetailsView)
  {
    forall ts, name :: details(ts, name) == TemplateDetails(ts, name)
  }

  ghost predicate DistinctTemplateNames(files: seq<RepoFile>)
  {
    forall i, j :: 0 <= i < j < |files| ==> TemplateName(files[i].name) != TemplateName(files[j].name)
  }

  /** The controller already holds the annotated content of every file. */
  ghost predicate UpToDate(ctl: Controller, comments: seq<CommitInfo>, files: seq<RepoFile>)
  {
    && ctl.project.Some?
    && forall k :: 0 <= k < |files| ==>
         StoredContent(ctl.templates, TemplateName(files[k].name)) == Some(ComposeTemplate(comments, files[k].name, files[k].body))
  }

  function ProjectPrefix(ctl: Controller, projectName: string): string
  {
    if ctl.project.None? then ProjectCreatedLine(projectName) else ""
  }

  /** The commit list of the repository: one `get_repo_commit_sha` per sha;
      the first response that raises ends the run. */
  method CollectCommitInfo(responses: seq<CommitResponse>) returns (r: Result<seq<CommitInfo>>)
    ensures r.Success? <==> forall i :: 0 <= i < |responses| ==> GetRepoCommitSha(responses[i]).Success?
    ensures r.Success? ==> |r.value| == |responses|
    ensures r.Success? ==> forall i :: 0 <= i < |responses| ==> GetRepoCommitSha(responses[i]) == Success(r.value[i])
  {
    var infos: seq<CommitInfo> := [];
    var i := 0;
    while i < |responses|
      invariant 0 <= i <= |responses|
      invariant |infos| == i
      invariant forall k :: 0 <= k < i ==> GetRepoCommitSha(responses[k]) == Success(infos[k])
    {
      var info := GetRepoCommitSha(responses[i]);
      if info.Failure? {
        return Failure(info.error);
      }
      infos := infos + [info.value];
      i := i + 1;
    }
    r := Success(infos);
  }

  /** The controller the file loop starts from: the given one, or, when the
      project is missing, the one `create_project` leaves (a fresh, empty
      project). */
  function Opened(ctl: Controller): (c: Controller)
    ensures c.project.Some?
    ensures ctl.project.Some? ==> c == ctl
    ensures ctl.project.None? ==> c.templates == [] && c.committed == ctl.committed
  {
    if ctl.project.None? then ctl.(project := Some(ctl.nextId), templates := [], nextId := ctl.nextId + 1)
    else ctl
  }

  /** The project-level calls made before the file loop. */
  function ProjectCalls(ctl: Controller, projectName: string): seq<Call>
  {
    if ctl.project.None? then [CreateProject(projectName)] else []
  }

  /** Reference definition of a sync that reaches the file loop with the
      commit summaries `comments`. */
  function Synchronise(ctl: Controller, projectName: string, comments: seq<CommitInfo>, src: Source): Outcome
  {
    var r := Reconcile(Opened(ctl), src.details, comments, src.files);
    Synced(r.ctl, ProjectCalls(ctl, projectName) + r.calls, r.verdicts, ProjectPrefix(ctl, projectName) + r.lines)
  }

  /** The project exists afterwards (the same one when it already did), and
      there is one verdict and one report line per file, in file order. */
  ghost predicate SyncedShape(ctl: Controller, projectName: string, src: Source, out: Outcome)
  {
    && out.Synced?
    && out.ctl.project.Some?
    && (ctl.project.Some? ==> out.ctl.project == ctl.project)
    && |out.verdicts| == |src.files|
    && VerdictsFor(out.verdicts, src.files)
    && out.report == ProjectPrefix(ctl, projectName) + Report(out.verdicts)
  }

  /** The project is created first, and only when it was missing; every
      template write is committed right after it; one local write per file,
      in file order. */
  ghost predicate SyncedTrace(ctl: Controller, projectName: string, comments: seq<CommitInfo>, src: Source, out: Outcome)
  {
    && out.Synced?
    && CommitsFollowWrites(out.calls)
    && Writes(out.calls) == ExpectedWrites(comments, src.files)
    && (ctl.project.None? <==> (|out.calls| > 0 && out.calls[0] == CreateProject(projectName)))
    && (forall i :: 0 < i < |out.calls| ==> !out.calls[i].CreateProject?)
  }

  /** When the details request reports the stored templates: with distinct
      template names the controller ends up holding every file's annotated
      content, and a controller that already held it is left alone, with
      only local writes and every verdict `Unchanged`. */
  ghost predicate SyncedStore(ctl: Controller, comments: seq<CommitInfo>, src: Source, out: Outcome)
  {
    && out.Synced?
    && (ConsistentDetails(src.details) && WellFormed(ctl) && DistinctTemplateNames(src.files) ==>
          UpToDate(out.ctl, comments, src.files))
    && (ConsistentDetails(src.details) && WellFormed(ctl) && UpToDate(ctl, comments, src.files) ==>
          out.ctl == ctl && Quiet(out.calls) && AllUnchanged(out.verdicts))
  }

  lemma SynchroniseShape(ctl: Controller, projectName: string, comments: seq<CommitInfo>, src: Source)
    ensures SyncedShape(ctl, projectName, src, Synchronise(ctl, projectName, comments, src))
  {
    ReconcileLines(Opened(ctl), src.details, comments, src.files);
  }

  lemma SynchroniseTrace(ctl: Controller, projectName: string, comments: seq<CommitInfo>, src: Source)
    ensures SyncedTrace(ctl, projectName, comments, src, Synchronise(ctl, projectName, comments, src))
  {
    ReconcileTrace(Opened(ctl), src.details, comments, src.files);
    ProjectCallsFirst(ctl, projectName, Reconcile(Opened(ctl), src.details, comments, src.files).calls);
  }

  /** Putting the project-level calls in front of a per-file trace keeps
      its shape and makes `create_project` the first call exactly when the
      project was missing. */
  lemma ProjectCallsFirst(ctl: Controller, projectName: string, calls: seq<Call>)
    requires CommitsFollowWrites(calls) && CreatesNoProject(calls)
    ensures var all := ProjectCalls(ctl, projectName) + calls;
      && CommitsFollowWrites(all)
      && Writes(all) == Writes(calls)
      && (ctl.project.None? <==> (|all| > 0 && all[0] == CreateProject(projectName)))
      && (forall i :: 0 < i < |all| ==> !all[i].CreateProject?)
  {
    if ctl.project.None? {
      CreateProjectFirst(projectName, calls);
    } else {
      assert ProjectCalls(ctl, projectName) + calls == calls;
    }
  }

  lemma CreateProjectFirst(projectName: string, calls: seq<Call>)
    requires CommitsFollowWrites(calls) && CreatesNoProject(calls)
    ensures CommitsFollowWrites([CreateProject(projectName)] + calls)
    ensures Writes([CreateProject(projectName)] + calls) == Writes(calls)
    ensures forall i :: 0 < i < |calls| + 1 ==> !([CreateProject(projectName)] + calls)[i].CreateProject?
  {
    var prefix := [CreateProject(projectName)];
    assert Writes(prefix) == [] by {
      assert prefix[..0] == [];
    }
    WritesAppend(prefix, calls);
    CommitsFollowWritesAppend(prefix, calls);
  }

  lemma SynchroniseStore(ctl: Controller, projectName: string, comments: seq<CommitInfo>, src: Source)
    ensures SyncedStore(ctl, comments, src, Synchronise(ctl, projectName, comments, src))
  {
    if ConsistentDetails(src.details) && WellFormed(ctl) {
      if DistinctTemplateNames(src.files) {
        ReconcileUpToDate(Opened(ctl), src.details, comments, src.files);
      }
      if UpToDate(ctl, comments, src.files) {
        SynchroniseQuiet(ctl, projectName, comments, src);
      }
    }
  }

  lemma SynchroniseQuiet(ctl: Controller, projectName: string, comments: seq<CommitInfo>, src: Source)
    requires ConsistentDetails(src.details)
    requires WellFormed(ctl) && UpToDate(ctl, comments, src.files)
    ensures var out := Synchronise(ctl, projectName, comments, src);
      out.ctl == ctl && Quiet(out.calls) && AllUnchanged(out.verdicts)
  {
    ReconcileQuiet(ctl, src.details, comments, src.files);
    assert ProjectCalls(ctl, projectName) + Reconcile(ctl, src.details, comments, src.files).calls
        == Reconcile(ctl, src.details, comments, src.files).calls;
  }

  /** The whole template sync: the early returns, the commit summaries,
      then the project and the files. */
  method SyncTemplates(ctl: Controller, projectName: string, repo: string, src: Source) returns (out: Outcome)
    ensures repo !in src.repos <==> out == RepoNotFound
    ensures (repo in src.repos && |src.files| == 0) <==> out == RepoEmpty
    ensures (repo in src.repos && |src.files| > 0 && !CommitsReadable(src.commits)) <==> out.CommitsUnreadable?
    ensures out.Synced? ==> CommitsReadable(src.commits)
    ensures out.Synced? ==> out == Synchronise(ctl, projectName, Summaries(src.commits), src)
    ensures out.Synced? ==> SyncedShape(ctl, projectName, src, out)
    ensures out.Synced? ==> SyncedTrace(ctl, projectName, Summaries(src.commits), src, out)
    ensures out.Synced? ==> SyncedStore(ctl, Summaries(src.commits), src, out)
  {
    if repo !in src.repos {
      return RepoNotFound;
    }
    if |src.files| == 0 {
      return RepoEmpty;
    }
    var collected := CollectCommitInfo(src.commits);
    if collected.Failure? {
      return CommitsUnreadable(collected.error);
    }
    var comments := collected.value;
    assert comments == Summaries(src.commits);
    out := SyncProject(ctl, projectName, comments, src);
    SynchroniseShape(ctl, projectName, comments, src);
    SynchroniseTrace(ctl, projectName, comments, src);
    SynchroniseStore(ctl, projectName, comments, src);
  }

  /** Create the project when it is missing, then run the file loop. */
  method SyncProject(ctl: Controller, projectName: string, comments: seq<CommitInfo>, src: Source) returns (out: Outcome)
    ensures out == Synchronise(ctl, projectName, comments, src)
  {
    var start := ctl;
    var prefix: seq<Call> := [];
    var report := "";
    if ctl.project.None? {
      report := ProjectCreatedLine(projectName);
      prefix := [CreateProject(projectName)];
      start := ctl.(project := Some(ctl.nextId), templates := [], nextId := ctl.nextId + 1);
    }
    assert start == Opened(ctl) && prefix == ProjectCalls(ctl, projectName) && report == ProjectPrefix(ctl, projectName);
    var st, calls, verdicts, lines := ReconcileFiles(start, comments, src);
    out := Synced(st, prefix + calls, verdicts, report + lines);
  }

  /** What the per-file loop has produced so far. */
  datatype Run = Run(ctl: Controller, calls: seq<Call>, verdicts: seq<Verdict>, lines: string)

  /** The per-file loop as a reference definition: one `SyncFile` per file, in
      file order, each against the details the service then reports. */
  function Reconcile(start: Controller, details: DetailsView, comments: seq<CommitInfo>, files: seq<RepoFile>): (r: Run)
    requires start.project.Some?
    ensures r.ctl.project == start.project
    ensures |r.verdicts| == |files| && VerdictsFor(r.verdicts, files)
  {
    if |files| == 0 then Run(start, [], [], "")
    else
      var p := Reconcile(start, details, comments, files[..|files| - 1]);
      var file := files[|files| - 1];
      var s := SyncFile(p.ctl, file, comments, details(p.ctl.templates, TemplateName(file.name)));
      VerdictsForSnoc(p.verdicts, s.verdict, files);
      Run(s.ctl, p.calls + s.calls, p.verdicts + [s.verdict], p.lines + ReportLine(s.verdict))
  }

  /** The per-file loop of the workflow, on a controller whose project
      exists: the controller, the calls, the verdicts and the report lines it
      produces are those of the reference run. */
  method ReconcileFiles(start: Controller, comments: seq<CommitInfo>, src: Source)
    returns (st: Controller, calls: seq<Call>, verdicts: seq<Verdict>, lines: string)
    requires start.project.Some?
    ensures Run(st, calls, verdicts, lines) == Reconcile(start, src.details, comments, src.files)
  {
    st := start;
    calls := [];
    verdicts := [];
    lines := "";
    var i := 0;
    while i < |src.files|
      invariant 0 <= i <= |src.files|
      invariant Run(st, calls, verdicts, lines) == Reconcile(start, src.details, comments, src.files[..i])
    {
      var file := src.files[i];
      var step := SyncFile(st, file, comments, src.details(st.templates, TemplateName(file.name)));
      ReconcileStep(start, src.details, comments, src.files, i);
      calls := calls + step.calls;
      lines := lines + ReportLine(step.verdict);
      verdicts := verdicts + [step.verdict];
      st := step.ctl;
      i := i + 1;
    }
    assert src.files[..i] == src.files;
  }

  /** The report lines of a run are one line per verdict, in file order. */
  lemma {:induction false} ReconcileLines(start: Controller, details: DetailsView, comments: seq<CommitInfo>, files: seq<RepoFile>)
    requires start.project.Some?
    ensures Reconcile(start, details, comments, files).lines == Report(Reconcile(start, details, comments, files).verdicts)
  {
    if |files| > 0 {
      var pre := files[..|files| - 1];
      ReconcileLines(start, details, comments, pre);
      var p := Reconcile(start, details, comments, pre);
      var file := files[|files| - 1];
      var s := SyncFile(p.ctl, file, comments, details(p.ctl.templates, TemplateName(file.name)));
      ReportSnoc("", p.verdicts, s.verdict);
      assert "" + p.lines == p.lines;
    }
  }

  lemma VerdictsForSnoc(vs: seq<Verdict>, v: Verdict, files: seq<RepoFile>)
    requires |vs| + 1 == |files| && VerdictsFor(vs, files[..|vs|])
    requires v.name == TemplateName(files[|vs|].name)
    ensures VerdictsFor(vs + [v], files)
  {
    forall k | 0 <= k < |vs| + 1
      ensures (vs + [v])[k].name == TemplateName(files[k].name)
    {
      if k < |vs| {
        assert files[..|vs|][k] == files[k];
      }
    }
  }

  /** One more file extends the run by that file's step. */
  lemma ReconcileStep(start: Controller, details: DetailsView, comments: seq<CommitInfo>, files: seq<RepoFile>, i: nat)
    requires start.project.Some? && i < |files|
    ensures var p := Reconcile(start, details, comments, files[..i]);
      var s := SyncFile(p.ctl, files[i], comments, details(p.ctl.templates, TemplateName(files[i].name)));
      Reconcile(start, details, comments, files[..i + 1]) == Run(s.ctl, p.calls + s.calls, p.verdicts + [s.verdict], p.lines + ReportLine(s.verdict))
  {
    assert files[..i + 1][..i] == files[..i];
  }

  /** The trace of a run: every template write committed right after it,
      nothing created at project level, and exactly one local write per file,
      in file order. */
  lemma {:induction false} ReconcileTrace(start: Controller, details: DetailsView, comments: seq<CommitInfo>, files: seq<RepoFile>)
    requires start.project.Some?
    ensures var calls := Reconcile(start, details, comments, files).calls;
      && CommitsFollowWrites(calls)
      && CreatesNoProject(calls)
      && Writes(calls) == ExpectedWrites(comments, files)
  {
    if |files| > 0 {
      var pre := files[..|files| - 1];
      ReconcileTrace(start, details, comments, pre);
      var p := Reconcile(start, details, comments, pre);
      var file := files[|files| - 1];
      var s := SyncFile(p.ctl, file, comments, details(p.ctl.templates, TemplateName(file.name)));
      SyncFileTrace(p.ctl, file, comments, details(p.ctl.templates, TemplateName(file.name)));
      CommitsFollowWritesAppend(p.calls, s.calls);
      CreatesNoProjectAppend(p.calls, s.calls);
      WritesAppend(p.calls, s.calls);
    }
  }

  /** A run keeps a well-formed controller well formed, whatever the details
      request returns. */
  lemma {:induction false} ReconcileWellFormed(start: Controller, details: DetailsView, comments: seq<CommitInfo>, files: seq<RepoFile>)
    requires start.project.Some? && WellFormed(start)
    ensures WellFormed(Reconcile(start, details, comments, files).ctl)
  {
    if |files| > 0 {
      var pre := files[..|files| - 1];
      ReconcileWellFormed(start, details, comments, pre);
      var p := Reconcile(start, details, comments, pre);
      var file := files[|files| - 1];
      SyncFileStore(p.ctl, file, comments, details(p.ctl.templates, TemplateName(file.name)));
    }
  }

  /** With distinct template names and a details request that reports the
      stored templates, a run from a well-formed controller leaves every
      file's annotated content stored under its name. */
  lemma {:induction false} ReconcileUpToDate(start: Controller, details: DetailsView, comments: seq<CommitInfo>, files: seq<RepoFile>)
    requires ConsistentDetails(details)
    requires start.project.Some? && WellFormed(start) && DistinctTemplateNames(files)
    ensures UpToDate(Reconcile(start, details, comments, files).ctl, comments, files)
  {
    if |files| > 0 {
      var pre := files[..|files| - 1];
      DistinctPrefix(files);
      ReconcileUpToDate(start, details, comments, pre);
      ReconcileWellFormed(start, details, comments, pre);
      var p := Reconcile(start, details, comments, pre);
      var file := files[|files| - 1];
      var read := details(p.ctl.templates, TemplateName(file.name));
      assert read == TemplateDetails(p.ctl.templates, TemplateName(file.name));
      SyncFileStore(p.ctl, file, comments, read);
      UpToDateSnoc(p.ctl, SyncFile(p.ctl, file, comments, read).ctl, comments, files, |files| - 1);
      assert files[..|files|] == files;
    }
  }

  lemma DistinctPrefix(files: seq<RepoFile>)
    requires |files| > 0 && DistinctTemplateNames(files)
    ensures DistinctTemplateNames(files[..|files| - 1])
  {
    var pre := files[..|files| - 1];
    forall i, j | 0 <= i < j < |pre|
      ensures TemplateName(pre[i].name) != TemplateName(pre[j].name)
    {
      assert pre[i] == files[i] && pre[j] == files[j];
    }
  }

  /** A run over files the controller already holds, with a details request
      that reports them, changes nothing: only local writes, every verdict
      `Unchanged`. */
  lemma {:induction false} ReconcileQuiet(start: Controller, details: DetailsView, comments: seq<CommitInfo>, files: seq<RepoFile>)
    requires ConsistentDetails(details)
    requires start.project.Some? && WellFormed(start) && UpToDate(start, comments, files)
    ensures var r := Reconcile(start, details, comments, files);
      r.ctl == start && Quiet(r.calls) && AllUnchanged(r.verdicts)
  {
    if |files| > 0 {
      var pre := files[..|files| - 1];
      var file := files[|files| - 1];
      forall k | 0 <= k < |pre|
        ensures StoredContent(start.templates, TemplateName(pre[k].name)) == Some(ComposeTemplate(comments, pre[k].name, pre[k].body))
      {
        assert pre[k] == files[k];
      }
      ReconcileQuiet(start, details, comments, pre);
      assert details(start.templates, TemplateName(file.name)) == TemplateDetails(start.templates, TemplateName(file.name));
      QuietSnoc(start, details, comments, files);
    }
  }

  /** The last file of a quiet run over an up-to-date controller keeps the
      run quiet. */
  lemma QuietSnoc(start: Controller, details: DetailsView, comments: seq<CommitInfo>, files: seq<RepoFile>)
    requires start.project.Some? && WellFormed(start) && |files| > 0
    requires var file := files[|files| - 1];
      && StoredContent(start.templates, TemplateName(file.name)) == Some(ComposeTemplate(comments, file.name, file.body))
      && details(start.templates, TemplateName(file.name)) == TemplateDetails(start.templates, TemplateName(file.name))
    requires var p := Reconcile(start, details, comments, files[..|files| - 1]);
      p.ctl == start && Quiet(p.calls) && AllUnchanged(p.verdicts)
    ensures var r := Reconcile(start, details, comments, files);
      r.ctl == start && Quiet(r.calls) && AllUnchanged(r.verdicts)
  {
    var file := files[|files| - 1];
    var p := Reconcile(start, details, comments, files[..|files| - 1]);
    UnchangedWhenUpToDate(start, file, comments);
    var s := SyncFile(start, file, comments, TemplateDetails(start.templates, TemplateName(file.name)));
    assert Reconcile(start, details, comments, files).calls == p.calls + s.calls;
    QuietAppend(p.calls, s.calls);
  }

  /** Verdict k is about the template of file k. */
  ghost predicate VerdictsFor(vs: seq<Verdict>, files: seq<RepoFile>)
  {
    |vs| <= |files| && forall k :: 0 <= k < |vs| ==> vs[k].name == TemplateName(files[k].name)
  }

  ghost predicate AllUnchanged(vs: seq<Verdict>)
  {
    forall k :: 0 <= k < |vs| ==> vs[k].Unchanged?
  }

  lemma UpToDateSnoc(st: Controller, st': Controller, comments: seq<CommitInfo>, files: seq<RepoFile>, i: nat)
    requires i < |files| && DistinctTemplateNames(files)
    requires UpToDate(st, comments, files[..i])
    requires st'.project.Some?
    requires forall n :: n != TemplateName(files[i].name) ==> StoredContent(st'.templates, n) == StoredContent(st.templates, n)
    requires StoredContent(st'.templates, TemplateName(files[i].name)) == Some(ComposeTemplate(comments, files[i].name, files[i].body))
    ensures UpToDate(st', comments, files[..i + 1])
  {
    var pre := files[..i + 1];
    forall k | 0 <= k < i + 1
      ensures StoredContent(st'.templates, TemplateName(pre[k].name)) ==
              Some(ComposeTemplate(comments, pre[k].name, pre[k].body))
    {
      if k < i {
        assert files[..i][k] == files[k];
        assert TemplateName(files[k].name) != TemplateName(files[i].name);
      }
    }
  }

  lemma QuietAppend(a: seq<Call>, b: seq<Call>)
    requires Quiet(a) && Quiet(b)
    ensures Quiet(a + b)
  {
  }

  lemma ReportSnoc(prefix: string, vs: seq<Verdict>, v: Verdict)
    ensures prefix + Report(vs + [v]) == prefix + Report(vs) + ReportLine(v)
  {
    assert (vs + [v])[..|vs|] == vs;
    var a, b := Report(vs), ReportLine(v);
    assert Report(vs + [v]) == a + b;
    assert prefix + (a + b) == prefix + a + b;
  }

  /** A file whose annotated content the controller already stores is left
      alone when the details response reflects the controller. */
  lemma UnchangedWhenUpToDate(ctl: Controller, file: RepoFile, comments: seq<CommitInfo>)
    requires ctl.project.Some? && WellFormed(ctl)
    requires StoredContent(ctl.templates, TemplateName(file.name)) == Some(ComposeTemplate(comments, file.name, file.body))
    ensures var s := SyncFile(ctl, file, comments, TemplateDetails(ctl.templates, TemplateName(file.name)));
      s.ctl == ctl && s.calls == [LocalWrite(comments, file)] && s.verdict == Unchanged(TemplateName(file.name))
  {
    var name := TemplateName(file.name);
    DetailsOfUniqueNames(ctl.templates, name);
    var i := LastTemplateIndex(ctl.templates, name).value;
    assert ctl.templates[i].name == name;
  }
}

=== FILE: text.dfy ===
/**
 * Facts about the report texts, which are literal pieces with names
 * spliced in.
 */
module Text {
  /** Two texts built from the same literal pieces around a spliced-in
      part are equal only when the spliced-in parts are. */
  lemma AffixCancel(a: string, x: string, y: string, b: string)
    requires a + x + b == a + y + b
    ensures x == y
  {
    var s := a + x + b;
    assert |x| == |y|;
    assert x == s[|a|..|a| + |x|];
    assert y == (a + y + b)[|a|..|a| + |y|];
  }
}

=== FILE: wrappers.dfy ===
/**
 * Optional values and the results of calls that may raise, shared by the
 * model.
 */
module Wrappers {

  /** A value that may be absent (Python `None`). */
  datatype Option<+T> = None | Some(value: T)

  /** A call that either returns a value or raises; `error` names the
      exception the Python code would raise. */
  datatype Result<+T> = Success(value: T) | Failure(error: string)
}
